=== FILE: README.md ===
# Alibava calibration bookkeeping and cross-plane correlation, in Dafny

This project models two parts of an EUTelescope-based analysis chain and
proves properties of the model.

**Alibava readout bookkeeping** (`AlibavaBaseProcessor`). This covers:

- the chip selection;
- the boolean channel-mask grid, rebuilt from a list of `$chip:from-to$`
  strings that name the channel ranges to use;
- the per-chip pedestal, noise and charge-calibration tables, with one
  validity flag each and per-channel getters that return 0 while a flag is
  down.

**Cross-plane correlator** (`EUTelCorrelator`). This covers:

- the position of each detector plane along the beam, with a 1e-6 tolerance;
- the neighbour relation between sensors;
- booking the histograms on the first usable event, and the integer bin
  counts of every axis;
- filling cluster and hit pairs under the asymmetric charge cut;
- the half-maximum weighted-centroid offset printed at the end of a run;
- guessing the sensor of a hit from its z.

Histograms are abstract. A booked histogram is a key with its axes, and
filling appends a point to a list of fills per histogram family.

Files and modules:

| file | module | what |
|---|---|---|
| wrappers.dfy | Wrappers | `Option` |
| decimal.dfy | Decimal | `atoi` and the decimal rendering of a natural number |
| alibava.dfy | Alibava | chip/channel constants, chip selection, min/max chip |
| channel_mask.dfy | ChannelMask | mask grid, masking-string decoder, range validation, `setChannelsToBeUsed`, `isMasked` |
| calibration.dfy | Calibration | pedestal/noise/charge-calibration tables, checks, getters |
| plane_order.dfy | PlaneOrder | z-order, sensor-ID map, neighbour relation, pixel ranges, `guessSensorID` |
| booking.dfy | Booking | axes and bin counts of every booked histogram, `bookHistos` |
| correlator.dfy | Correlator | pair filters, fills, the first-event state machine over a run |
| offset.dfy | OffsetEstimate | histogramming of shifts and the half-maximum band mean |
| run_summary.dfy | RunSummary | the per-pair offsets reported by `end` |

The external calibration reader is a function parameter (`Calibration.Fetch`).
The geometry is an input sequence of plane records `(id, z, npixX, npixY)`.

Several behaviours of the code are modelled as written:

- Reading a missing chip through the map's subscript operator inserts an empty
  vector (`Calibration.Touch`).
- Loading uses `insert`, so a chip that already has a vector keeps it.
- A masking string holding anything after its closing `$` makes the decoder
  loop for ever (`ChannelMask.NeverReturns`).
- A cluster from a sensor that is not in the geometry reads z-order 0. It then
  pairs with the sensors at position 1, whose histograms for that key were
  never booked. That fill goes through a null histogram
  (`Correlator.NullFill`).

`getMinChipNumber` and `getMaxChipNumber` return the first and last selected
chip converted to `unsigned int`; the conversion is modelled as reduction
modulo 2^32 (`Alibava.AsUnsigned`).

## Model

| member | source | states |
|---|---|---|
| ChannelMask.SetAllMasksTo | processors/src/alibava/AlibavaBaseProcessor.cc:596-605 | the grid has NOOFCHIPS rows of NOOFCHANNELS entries, every one equal to the argument |
| ChannelMask.NewRegistry | processors/src/alibava/AlibavaBaseProcessor.cc:45-70 | a new processor has no selection, no masking strings and no entry masked |
| Alibava.IsChipValid | processors/src/alibava/AlibavaBaseProcessor.cc:406-414 | true exactly when the chip is in the selection |
| Alibava.GetMinChipNumber | processors/src/alibava/AlibavaBaseProcessor.cc:581-586 | the first selected chip is in the selection, and for an ascending selection it is no larger than any selected chip |
| Alibava.GetMaxChipNumber | processors/src/alibava/AlibavaBaseProcessor.cc:589-594 | the last selected chip is in the selection, and for an ascending selection it is no smaller than any selected chip |
| Decimal.PrefixRunIsMaximal | processors/src/alibava/AlibavaBaseProcessor.cc:501 | the digit (or blank) run read by `atoi` is maximal: every character in it qualifies and the next one does not |
| Decimal.AtoiOfNatToString | processors/src/alibava/AlibavaBaseProcessor.cc:501 | `atoi` reads back the decimal rendering of every natural number |
| Decimal.AtoiNonNegative | processors/src/alibava/AlibavaBaseProcessor.cc:506 | `atoi` of text without a minus sign is never negative |
| ChannelMask.Find | processors/src/alibava/AlibavaBaseProcessor.cc:496 | the search result lies between the start position and the end of the string |
| ChannelMask.FindIsFirst | processors/src/alibava/AlibavaBaseProcessor.cc:496 | the search result is the first occurrence at or after the start position, or the end of the string when there is none |
| ChannelMask.SubStringUpToCharSpec | processors/src/alibava/AlibavaBaseProcessor.cc:500-515 | the substring holds no separator, is the stretch of the string at the position, and is ended by the separator or the end of the string |
| ChannelMask.DecodeMaskingString | processors/src/alibava/AlibavaBaseProcessor.cc:483-519 | the empty string gives (-1, -1, -1); the decoder never returns exactly when its pass stops short of the end of the string; otherwise chip, from- and to-channel are the `atoi` values of the separator-free texts before `:`, `-` and `$` (the to-channel -1 when the text ends first), and the from-channel is never negative; `ChannelMask.DecodeToken` gives the round trip |
| ChannelMask.FromTextHasNoMinus | processors/src/alibava/AlibavaBaseProcessor.cc:505-506 | the from-channel text stops at the first `-`, so it contains none |
| ChannelMask.DecodedFromNonNegative | processors/src/alibava/AlibavaBaseProcessor.cc:505-506 | a non-empty string never decodes to a negative from-channel, so the unmask writes stay inside the grid |
| ChannelMask.DecodeToken | processors/src/alibava/AlibavaBaseProcessor.cc:486-518 | `$c:f-t$` decodes to exactly (c, f, t) |
| ChannelMask.DecodeWithoutToChannel | processors/src/alibava/AlibavaBaseProcessor.cc:509-512 | text that ends after the from-channel decodes to (c, f, -1) |
| ChannelMask.DecodeTokenThenMoreNeverReturns | processors/src/alibava/AlibavaBaseProcessor.cc:492-497 | any text after a token's closing `$` makes the decoder restart at the first `$` for ever |
| ChannelMask.IsMaskingValid | processors/src/alibava/AlibavaBaseProcessor.cc:521-545 | a range is valid exactly when its chip is selected and from <= to < NOOFCHANNELS |
| ChannelMask.UnmaskRange | processors/src/alibava/AlibavaBaseProcessor.cc:474-477 | channels from..to of the chip become unmasked and every other entry is unchanged |
| ChannelMask.CoveredByNext | processors/src/alibava/AlibavaBaseProcessor.cc:465-478 | considering one more string adds exactly the channels that string's valid range unmasks |
| ChannelMask.CoveredByAll | processors/src/alibava/AlibavaBaseProcessor.cc:465-478 | being covered by the decodings of all strings is the same as being covered by the strings |
| ChannelMask.DecodingsPlausible | processors/src/alibava/AlibavaBaseProcessor.cc:469 | every decoded from-channel is non-negative unless the string was empty, whose chip is -1 |
| ChannelMask.ApplyDecoding | processors/src/alibava/AlibavaBaseProcessor.cc:471-478 | after one string an entry is masked exactly when it was masked and the string's range is invalid or misses it |
| ChannelMask.UnmaskAll | processors/src/alibava/AlibavaBaseProcessor.cc:460-478 | starting from the all-masked grid, no result exactly when some decoding never returns; otherwise the grid stays well shaped and an entry stays masked exactly when no decoding's valid range covers it |
| ChannelMask.SetChannelsToBeUsed | processors/src/alibava/AlibavaBaseProcessor.cc:448-481 | no result exactly when some string makes the decoder loop; otherwise selection and strings are kept, and an entry is masked exactly when no string's valid range covers it |
| ChannelMask.IsMaskedAsWritten | processors/src/alibava/AlibavaBaseProcessor.cc:430-446 | no strings means nothing is masked; with strings, a selected chip and a channel in 0..NOOFCHANNELS-1 read the grid entry, an unselected chip or a channel from NOOFCHANNELS up read false, and a selected chip with a negative channel reads outside the grid |
| ChannelMask.IsMasked | processors/src/alibava/AlibavaBaseProcessor.cc:430-446 | no strings means nothing is masked; with strings, a selected chip and a channel in range read the grid entry, and anything else reads as not masked; agrees with the source wherever the source's read stays inside the grid |
| ChannelMask.MaskedIffNotCovered | processors/src/alibava/AlibavaBaseProcessor.cc:430-481 | after the strings are applied, a selected chip's channel is masked exactly when no string covers it |
| Calibration.Touch | processors/src/alibava/AlibavaBaseProcessor.cc:172 | a subscript read adds the key and changes no vector |
| Calibration.TouchAll | processors/src/alibava/AlibavaBaseProcessor.cc:165-196 | reading every selected chip adds the selection to the keys and changes no vector |
| Calibration.LoadInto | processors/src/alibava/AlibavaBaseProcessor.cc:118-147 | loading adds the selection to the keys, keeps every vector already present and stores the fetched vector for each new chip |
| Calibration.AnySized | processors/src/alibava/AlibavaBaseProcessor.cc:165-181 | true exactly when some selected chip has a vector of NOOFCHANNELS entries |
| Calibration.AllSized | processors/src/alibava/AlibavaBaseProcessor.cc:335-347 | true exactly when every selected chip has a vector of NOOFCHANNELS entries |
| Calibration.NewStore | processors/src/alibava/AlibavaBaseProcessor.cc:45-63 | a new processor has no selection, no collection names, empty tables and no valid flag |
| Calibration.LoadTable | processors/src/alibava/AlibavaBaseProcessor.cc:122-146 | a table with no collection name is untouched; a named one gains the selected chips as keys, keeps every vector it had, and holds for each selected chip its old vector or else the fetched one |
| Calibration.LoadedTable | processors/src/alibava/AlibavaBaseProcessor.cc:127-128 | after loading a named table, each selected chip holds its old vector, or else the fetched one |
| Calibration.LoadPedestalsLoaded | processors/src/alibava/AlibavaBaseProcessor.cc:118-147 | the loading loop leaves both named tables holding the old or fetched vector of every selected chip, with every other chip unchanged |
| Calibration.LoadTableLoaded | processors/src/alibava/AlibavaBaseProcessor.cc:122-146 | loading one table keeps its name and its vectors, gives each selected chip its old or fetched vector, changes no chip outside the selection, and leaves an unnamed table untouched |
| Calibration.TableLoadedSurvivesRead | processors/src/alibava/AlibavaBaseProcessor.cc:165-193 | the subscript reads of the check change no vector, so a loaded table stays loaded |
| Calibration.CheckTableAny | processors/src/alibava/AlibavaBaseProcessor.cc:165-196 | one table's check as written: valid exactly when the table is named and some selected chip is full; no vector changes |
| Calibration.CheckPedestals | processors/src/alibava/AlibavaBaseProcessor.cc:151-214 | pedestal (and separately noise) validity holds exactly when the collection is named and at least one selected chip is full; charge calibration untouched |
| Calibration.SetPedestalsAsWritten | processors/src/alibava/AlibavaBaseProcessor.cc:105-149 | both named tables hold, for every selected chip, the old or else the fetched vector, keep the vectors they had and change no chip outside the selection; unnamed tables and the charge calibration are untouched; each flag holds exactly when the table is named and one selected chip's vector is full |
| Calibration.CheckTableAll | processors/src/alibava/AlibavaBaseProcessor.cc:321-347 | one table's check over every chip: valid exactly when named, the selection is non-empty and every selected chip is full |
| Calibration.CheckPedestalsAllChips | processors/src/alibava/AlibavaBaseProcessor.cc:151-214 | corrected pedestal and noise check: each flag holds exactly when the table is named, the selection is non-empty and every selected chip is full |
| Calibration.SetPedestals | processors/src/alibava/AlibavaBaseProcessor.cc:105-149 | both named tables are loaded as in `SetPedestalsAsWritten`, and each flag holds exactly when the table is named, the selection is non-empty and every selected chip's vector is full |
| Calibration.CheckCalibration | processors/src/alibava/AlibavaBaseProcessor.cc:321-353 | calibration validity holds exactly when the selection is non-empty and every selected chip is full; the collection name is not consulted |
| Calibration.SetCalibration | processors/src/alibava/AlibavaBaseProcessor.cc:295-319 | every selected chip holds its old or fetched vector, named collection or not, and validity holds exactly when all of those are full; vectors already present, chips outside the selection, the collection name, the pedestal and noise tables and every other field are unchanged |
| Calibration.LoadIntoLeavesOthers | processors/src/alibava/AlibavaBaseProcessor.cc:308-316 | loading leaves the vector of every chip outside the selection as it was |
| Calibration.ValueAt | processors/src/alibava/AlibavaBaseProcessor.cc:235-247 | 0 while the flag is down; otherwise the stored entry when the channel lies inside the chip's vector, and no value when it lies outside |
| Calibration.PedestalAtChannel | processors/src/alibava/AlibavaBaseProcessor.cc:235-247 | the pedestal getter: 0 when not valid, else the stored value, `None` outside the vector; every field but the pedestal table unchanged, and that table keeps its name and reads back the same vector for every chip |
| Calibration.NoiseAtChannel | processors/src/alibava/AlibavaBaseProcessor.cc:273-285 | the noise getter: 0 when not valid, else the stored value, `None` outside the vector; every field but the noise table unchanged, and that table keeps its name and reads back the same vector for every chip |
| Calibration.ChargeCalAtChannel | processors/src/alibava/AlibavaBaseProcessor.cc:373-385 | the charge-calibration getter: 0 when not valid, else the stored value, `None` outside the vector; every field but the charge-calibration table unchanged, and that table keeps its name and reads back the same vector for every chip |
| Calibration.PedestalReadsSucceed | processors/src/alibava/AlibavaBaseProcessor.cc:235-247 | with the all-chips check, a valid pedestal table can be read at every channel of every selected chip |
| Calibration.ChargeCalReadsSucceed | processors/src/alibava/AlibavaBaseProcessor.cc:373-385 | a valid charge calibration can be read at every channel of every selected chip |
| Calibration.LoadKeepsExisting | processors/src/alibava/AlibavaBaseProcessor.cc:128 | reloading never replaces a vector already present |
| Calibration.TouchAllPresent | processors/src/alibava/AlibavaBaseProcessor.cc:341 | reading keys that are all present changes nothing |
| Calibration.LoadIntoPresent | processors/src/alibava/AlibavaBaseProcessor.cc:315 | loading keys that are all present changes nothing |
| Calibration.SetCalibrationCovers | processors/src/alibava/AlibavaBaseProcessor.cc:308-316 | after `setCalibration` every selected chip has a vector, and the selection, file and collection are unchanged |
| Calibration.SetCalibrationIdempotent | processors/src/alibava/AlibavaBaseProcessor.cc:295-353 | running `setCalibration` twice with the same reader gives the same store as once |
| Calibration.FullVectorsAreValid | processors/src/alibava/AlibavaBaseProcessor.cc:105-149 | a fresh named table whose reader delivers full vectors for a non-empty selection is valid |
| Calibration.ShortChipPassesCheck | processors/src/alibava/AlibavaBaseProcessor.cc:173-180 | as written, one full chip makes the pedestals valid while the read of the short chip falls outside its vector |
| Calibration.ShortChipFailsAllChipsCheck | processors/src/alibava/AlibavaBaseProcessor.cc:173-180 | with the all-chips check the same store is invalid and the read falls back to 0 |
| PlaneOrder.CountBelowIsCardinality | src/EUTelCorrelator.cc:133-140 | the count is the number of planes whose z plus 1e-6 is below the position |
| PlaneOrder.ZOrderBounded | src/EUTelCorrelator.cc:133-140 | a plane's position lies below the number of planes |
| PlaneOrder.CountBelowMonotone | src/EUTelCorrelator.cc:133-140 | a position further downstream never has fewer planes upstream of it |
| PlaneOrder.MinimalIsFirst | src/EUTelCorrelator.cc:133-140 | a plane with minimal z is at position 0 |
| PlaneOrder.ZOrderMonotone | src/EUTelCorrelator.cc:133-140 | a plane further downstream never has a smaller position |
| PlaneOrder.ZOrderExamples | src/EUTelCorrelator.cc:126-148 | planes at 0, 10, 20 get 0, 1, 2; planes at 0, 10, 10+5e-7 get 0, 1, 1 |
| PlaneOrder.ZOrderMapUpTo | src/EUTelCorrelator.cc:126-148 | the map's keys are the IDs of the planes seen so far |
| PlaneOrder.ZOrderMapUpToFirst | src/EUTelCorrelator.cc:148 | `insert` keeps the first entry, so the first plane with an ID decides its position |
| PlaneOrder.ZOrderMap | src/EUTelCorrelator.cc:126-148 | the map has one key per sensor ID of the geometry |
| PlaneOrder.ZOrderMapReads | src/EUTelCorrelator.cc:148 | reading a sensor's position gives the position of the first plane carrying it |
| PlaneOrder.NoSelfNeighbour | src/EUTelCorrelator.cc:400 | no sensor is its own neighbour |
| PlaneOrder.NeighboursPointDownstream | src/EUTelCorrelator.cc:400 | between sensors of the geometry, a neighbour sits strictly further along the beam |
| PlaneOrder.LastIndexOf | src/EUTelCorrelator.cc:150-153 | the index found carries the ID and no later plane does, or no plane carries it |
| PlaneOrder.NearestUpTo | src/EUTelCorrelator.cc:897-903 | the loop keeps the first plane of minimal distance among those scanned |
| PlaneOrder.GuessSensorID | src/EUTelCorrelator.cc:891-911 | -1 without planes; otherwise the ID of the first plane nearest to the hit's z |
| Booking.CorrelationAxis | src/EUTelCorrelator.cc:649-674 | max-min+1 bins over [min-0.5, max+0.5], one pixel wide, bin k centred on pixel min+k |
| Booking.ShiftAxis | src/EUTelCorrelator.cc:692-697 | 2max+1 unit bins symmetric about 0, bin k centred on shift k-max |
| Booking.ShiftAxisYAsWritten | src/EUTelCorrelator.cc:713-718 | the Y shift axis as booked spans [-max-0.5, max+0.5] and has unit bins only when min = max |
| Booking.ShiftAxisYAsWrittenCounterexample | src/EUTelCorrelator.cc:713-718 | for rows 0..2 the booked Y shift axis has 3 bins over a span of 5 |
| Booking.ShiftAxisY | src/EUTelCorrelator.cc:713-718 | the Y shift axis spans [-max-0.5, max+0.5] with max+1 bins as booked, or 2max+1 bins when corrected |
| Booking.HitBins | src/EUTelCorrelator.cc:757-764 | at most 512 bins: 2 per pixel below 255 pixels, otherwise 512 |
| Booking.BookedPairs | src/EUTelCorrelator.cc:618-639 | a pair is booked exactly when both are sensors of the geometry and the second is the next one downstream |
| Booking.BookHistos | src/EUTelCorrelator.cc:582-888 | cluster histograms exactly for booked pairs when clusters were seen, hit histograms likewise for hits, projections for every sensor when clusters were seen; the Y shift axes are booked as written |
| Booking.BookHistosCorrected | src/EUTelCorrelator.cc:582-888 | the corrected booking: cluster histograms exactly for the booked pairs and projections for every sensor when clusters were seen, hit histograms exactly for the booked pairs when hits were seen, the same keys as `Booking.BookHistos`; its Y axes are `Booking.ShiftAxisY` with 2max+1 bins |
| Booking.NoSelfPair | src/EUTelCorrelator.cc:639 | no histogram pairs a sensor with itself |
| Booking.ClusterAxesUnitWidth | src/EUTelCorrelator.cc:649-718 | as booked, the correlation and X shift axes have one-pixel bins, and a Y shift axis does exactly when its sensor has a single row |
| Booking.CorrectedClusterAxesUnitWidth | src/EUTelCorrelator.cc:649-718 | with the corrected Y shift axes every cluster histogram axis has one-pixel bins |
| Booking.ProjectionsMatchShifts | src/EUTelCorrelator.cc:692-718 | the internal sensor's projections have exactly the binning of the shift axes that feed them |
| Booking.HitBinsBounded | src/EUTelCorrelator.cc:757-795 | for sensors with pixels, every hit histogram axis has between 1 and 512 bins |
| Correlator.InnerPairsMembership | src/EUTelCorrelator.cc:347-424 | the inner loop yields exactly the pairs with internal elements that pass the filter |
| Correlator.PairsOfMembership | src/EUTelCorrelator.cc:290-427 | the nested loops yield exactly the pairs of elements that pass the filter |
| Correlator.ClusterPairsAreFiltered | src/EUTelCorrelator.cc:345-400 | a cluster pair is used exactly when external charge > min, internal charge >= min and they are neighbours |
| Correlator.HitPairsAreFiltered | src/EUTelCorrelator.cc:438-456 | a hit pair is used exactly when the guessed sensors are neighbours, with no charge cut |
| Correlator.InitialConsistent | src/EUTelCorrelator.cc:156 | the state after `init` satisfies the booking invariant |
| Correlator.AppendBooked | src/EUTelCorrelator.cc:415-419 | appending fills to booked histograms keeps every fill booked |
| Correlator.FillClustersKeepsBooked | src/EUTelCorrelator.cc:415-419 | filling the cluster pairs of an event keeps every fill in a booked histogram |
| Correlator.FillHitsKeepsBooked | src/EUTelCorrelator.cc:461-463 | filling the hit pairs of an event keeps every fill in a booked histogram |
| Correlator.FillEventKeepsBooked | src/EUTelCorrelator.cc:278-476 | a filled event, exceptions included, keeps every fill in a booked histogram |
| Correlator.EndOfRunChangesNothing | src/EUTelCorrelator.cc:221-223 | an end-of-run event changes nothing |
| Correlator.BookedStaysBooked | src/EUTelCorrelator.cc:231-271 | once booked the processor never books again and keeps its flags |
| Correlator.FirstEventBooks | src/EUTelCorrelator.cc:231-271 | before booking, an event without collections books and fills nothing; one with a collection books for exactly the collections it has |
| Correlator.ProcessEventConsistent | src/EUTelCorrelator.cc:206-481 | processing an event keeps the booking invariant |
| Correlator.NoSelfFill | src/EUTelCorrelator.cc:400-456 | no fill ever pairs a sensor with itself: the neighbour tests at lines 400 and 456 need the second sensor one position further |
| Correlator.GuessIsKnown | src/EUTelCorrelator.cc:891-911 | a guessed sensor is a sensor of the geometry, or -1 without planes |
| Correlator.KnownClustersFillBooked | src/EUTelCorrelator.cc:400-419 | clusters from sensors of the geometry only fill booked histograms |
| Correlator.HitsFillBooked | src/EUTelCorrelator.cc:444-463 | hits always fill booked histograms |
| Correlator.FillEventNeverNull | src/EUTelCorrelator.cc:278-476 | a booked processor never fills a null histogram when every cluster names a sensor of the geometry |
| Correlator.KnownSensorsNeverFillNull | src/EUTelCorrelator.cc:206-481 | processing such an event never fills a null histogram |
| Correlator.TwoPlanesOrder | src/EUTelCorrelator.cc:126-148 | two planes at z 0 and 10 carry sensors 1 and 2 at positions 0 and 1 |
| Correlator.UnknownSensorPairUnbooked | src/EUTelCorrelator.cc:809-826 | a cluster on unknown sensor 7 passes the neighbour test of line 400 with sensor 2, but the histogram for that key was never booked |
| Correlator.UnknownSensorFillsNull | src/EUTelCorrelator.cc:400-415 | the first event with such clusters fills a null histogram |
| Correlator.ShiftFillsAreDifferences | src/EUTelCorrelator.cc:415-419 | each accepted pair adds (ext, int) to the correlation fills and (ext, int-ext) to the shift fills |
| Correlator.ClusterFillsAreFiltered | src/EUTelCorrelator.cc:345-419 | the new X correlation fills of an event are exactly the points of the pairs passing the cut and the neighbour test |
| Correlator.RunKeepsBooking | src/EUTelCorrelator.cc:231-271 | once booked, a whole run never books again |
| Correlator.RunWithoutUsableEvent | src/EUTelCorrelator.cc:221-259 | without a usable event a run stays unbooked and fills nothing |
| Correlator.RunBooksOnFirstUsable | src/EUTelCorrelator.cc:221-271 | a run books exactly once, on its first usable event, for the collections that event has |
| Correlator.KnownSensorsRunNeverFillsNull | src/EUTelCorrelator.cc:206-481 | a run whose clusters name only sensors of the geometry never fills a null histogram |
| OffsetEstimate.BinOfInRange | src/EUTelCorrelator.cc:507 | a value inside the axis falls into one of its bins |
| OffsetEstimate.Histogram | src/EUTelCorrelator.cc:498-509 | the histogram has one count per bin of the axis |
| OffsetEstimate.HistogramConserves | src/EUTelCorrelator.cc:498-509 | the bin counts add up to the number of values inside the axis |
| OffsetEstimate.HistogramCountsBin | src/EUTelCorrelator.cc:507 | each bin counts exactly the values that fall into it |
| OffsetEstimate.Highest | src/EUTelCorrelator.cc:498-512 | the highest bin starts from 0, bounds every bin and is reached by one |
| OffsetEstimate.BandWeightAtLeast | src/EUTelCorrelator.cc:533-546 | the band weight is at least any bin that reaches the threshold |
| OffsetEstimate.BandBelowThreshold | src/EUTelCorrelator.cc:540 | bins below the half-maximum threshold add neither weight nor moment |
| OffsetEstimate.BandMomentNonNegative | src/EUTelCorrelator.cc:533-550 | with non-negative centres the band moment is non-negative |
| OffsetEstimate.OffsetUndefinedIffEmpty | src/EUTelCorrelator.cc:533-571 | the offset is undefined exactly when every bin is empty |
| OffsetEstimate.BandMomentBounds | src/EUTelCorrelator.cc:533-546 | with centres in [lo, hi] the moment lies between lo and hi times the weight |
| OffsetEstimate.OffsetBetween | src/EUTelCorrelator.cc:533-571 | the offset lies between the lowest and highest bin centre |
| OffsetEstimate.BandMomentMoved | src/EUTelCorrelator.cc:533-546 | moving every centre by d adds d times the weight to the moment |
| OffsetEstimate.OffsetMoves | src/EUTelCorrelator.cc:533-571 | moving every bin centre by d moves the offset by d |
| OffsetEstimate.BandOfOneBin | src/EUTelCorrelator.cc:533-546 | when only one bin reaches the threshold, the band is that bin alone |
| OffsetEstimate.OffsetOfOneBin | src/EUTelCorrelator.cc:498-571 | a bin more than twice as high as every other gives its own centre as the offset |
| OffsetEstimate.OffsetExample | src/EUTelCorrelator.cc:498-571 | heights 1, 4, 10, 4, 1 over centres -2..2 give offset 0 |
| RunSummary.ShiftsOfMembership | src/EUTelCorrelator.cc:418-419 | the shifts of a pair are exactly the values filled for it |
| RunSummary.PairOffset | src/EUTelCorrelator.cc:485-493 | a pair is reported only when clusters were seen and its shift histogram is booked |
| RunSummary.ReportedPairs | src/EUTelCorrelator.cc:485-493 | in a consistent state, exactly the booked neighbour pairs whose internal sensor has a column are reported |
| RunSummary.HistogramOfUniform | src/EUTelCorrelator.cc:498-509 | values that all fall into one bin fill that bin alone |
| RunSummary.ShiftBin | src/EUTelCorrelator.cc:692-697 | on a shift axis a whole shift d falls into bin d+max |
| RunSummary.AxisOffsetOfUniformShift | src/EUTelCorrelator.cc:498-571 | when every shift is the same whole number of pixels, that shift is the offset |
| RunSummary.AxisOffsetOfUniform | src/EUTelCorrelator.cc:498-571 | on any axis, values that all equal v inside it give the centre of v's bin as the offset |
| RunSummary.CentreWithin | src/EUTelCorrelator.cc:501-505 | every bin centre lies at least half a bin inside the axis |
| RunSummary.AxisOffsetWithin | src/EUTelCorrelator.cc:533-571 | the offset read off any axis lies at least half a bin inside it |
| RunSummary.ShiftAxisYIsWide | src/EUTelCorrelator.cc:713-718 | both Y shift axes are valid and their bins are at least one row wide |
| RunSummary.AxisOffsetWithinRange | src/EUTelCorrelator.cc:498-571 | the offset never leaves the range of shifts the axis covers |
| RunSummary.AxisOffsetOfNothing | src/EUTelCorrelator.cc:533-571 | without shifts there is no offset |
| RunSummary.UniformShifts | src/EUTelCorrelator.cc:418-419 | when every fill of a pair carries shift d, the pair's shifts are a non-empty list of d |
| RunSummary.UniformShiftIsTheOffsetX | src/EUTelCorrelator.cc:498-571 | a reported pair whose X shifts all equal a whole d within the sensor reports X offset d (the shifts are the differences filled at line 418) |
| RunSummary.UniformShiftIsTheOffsetY | src/EUTelCorrelator.cc:515-571 | as booked, a reported pair whose Y shifts all equal a whole d within the sensor reports the centre of the wide Y bin that d falls into |
| RunSummary.YOffsetOfOneRow | src/EUTelCorrelator.cc:713-718 | for rows 0..2 a uniform Y shift of 1 reads back as 5/3 from the axis as booked, and as 1 from the corrected axis |
| RunSummary.CorrectedUniformShiftIsTheOffsetY | src/EUTelCorrelator.cc:498-571 | with the corrected booking a uniform whole Y shift within the sensor is the Y offset |
| RunSummary.OffsetsWithinSensor | src/EUTelCorrelator.cc:498-571 | reported offsets lie within the pixel range of the internal sensor, also for the wider Y bins as booked |
| RunSummary.NoShiftsNoOffset | src/EUTelCorrelator.cc:533-571 | a reported pair without X shifts has no X offset |

## Left out

- Marlin plumbing: processor registration, parameters, collection-name getters and setters, `streamlog` output. These are configuration and logging.
- The run-header geometry check with its console prompt and `exit`. This is I/O.
- The AIDA backend: directories, names, titles, and the physical ranges of the hit histograms with their safety factor of 2. Only bin counts are kept, and a histogram is a key with axes plus a list of fills.
- Cluster-type and pixel-type dispatch, the cell-ID decoder and `getChipNum`. A cluster is abstracted as (sensor ID, charge, x, y), and its centre of gravity is taken as given.
- The calibration file reader. It is the function parameter `Calibration.Fetch`.
- `printChannelMasking`, `doesRootObjectExists` and the ROOT object map, and the two `printf` lines of `end` with the 18.4 scale factor. These are output only.
- IEEE floating point. Positions, charges and offsets are `real`, so float rounding and the largest-double start value of `guessSensorID` are not modelled. 0/0 is `None`, where the source prints NaN.
- `atoi` overflow. Digit strings are read into unbounded integers.
- The unset collection-name marker. It is `Option.None`.
- Alibava.GetMinChipNumber, Alibava.GetMaxChipNumber: the empty selection is excluded by a precondition, because `front()`/`back()` of an empty vector has no defined result.
- ChannelMask.Valid: assumes every selected chip number is in 0..NOOFCHIPS-1 (`Alibava.ValidSelection`). `setChipSelection` stores any vector, but the mask grid has only NOOFCHIPS rows, so a larger selected chip would make `isMasked` and the unmask writes index outside the grid. The comment at processors/src/alibava/AlibavaBaseProcessor.cc:583-584 defers chip-selection validity to the converter's `checkIfChipSelectionIsValid`, which is not part of this model.
- `std::map::operator[]` inserting 0 into the sensor-ID map when `processEvent` or `bookHistos` reads an unknown ID. Reads use the default 0 without growing the map, so the map's key set stays that of the geometry.
- The `has*Collection` flags are uninitialised in the source before the first event. The model starts them at false.
- Within `end`, the source looks up histograms by plane index 0..n-1, not by sensor ID. The model reports per sensor-ID pair, which is the same when the IDs are 0..n-1 in layer order.
- Within `end`, the projection of an internal sensor keeps accumulating across every external plane, and the threshold comes from one pair's columns. The model uses one pair's shifts for both. This is the same when an internal sensor has one upstream neighbour.
- `binEntriesY` counting of entries whose x falls into under- or overflow. The model projects every shift of the pair onto the shift axis.
- RunSummary.PairOffset: reads bin centres from the pair's shift axis, not from the projection histogram. `Booking.ProjectionsMatchShifts` proves the two have the same binning.
- ChannelMask.SetChannelsToBeUsed: its result is stated through the decodings of the strings. A string the decoder never finishes gives no result, in place of a hang.

## Findings

| source | as written | input that shows it | evidently intended | confidence | as-written member | corrected member |
|---|---|---|---|---|---|---|
| processors/src/alibava/AlibavaBaseProcessor.cc:417-446 | `isChannelValid` checks only `ichan < NOOFCHANNELS`, so `isMasked` indexes the grid with a negative channel | chip 0 selected, one masking string, channel -1: the read `_isMasked[0][-1]` is outside the grid | a negative channel is invalid and reads as not masked | not executed | ChannelMask.IsMaskedAsWritten | ChannelMask.IsMasked |
| src/EUTelCorrelator.cc:713-718 | the Y shift axis (and the Y projection at lines 862-864) gets `maxY + minY + 1` bins over `[-maxY-0.5, maxY+0.5]`; X uses `2 maxX + 1` | a sensor with rows 0..2: 3 bins over a span of 5, centred on -5/3, 0 and 5/3, so a uniform shift of 1 is reported as 5/3 | `2 maxY + 1` unit bins, as for X | not executed | Booking.ShiftAxisYAsWritten | Booking.BookHistosCorrected |
| processors/src/alibava/AlibavaBaseProcessor.cc:173-193 | a pedestal or noise table becomes valid when ANY selected chip has a full vector, and a short chip never resets it | chips 0 and 1 selected, chip 0 with 128 pedestals, chip 1 with none: valid, and the pedestal read of chip 1 is outside its vector | valid only when every selected chip is full, as `checkCalibration` does and as the message at line 200 announces | not executed | Calibration.ShortChipPassesCheck | Calibration.ShortChipFailsAllChipsCheck |

For the second row, `Booking.BookHistos` books the Y shift axes and projections as written. The correlator state and the end-of-run offsets use that booking. `Booking.ShiftAxisYAsWrittenCounterexample` and `RunSummary.YOffsetOfOneRow` show the discrepancy. `Booking.BookHistosCorrected` is the corrected booking. `Booking.CorrectedClusterAxesUnitWidth` and `RunSummary.CorrectedUniformShiftIsTheOffsetY` prove the intended properties about it.

For the third row, `Calibration.CheckPedestals` and `Calibration.SetPedestalsAsWritten` model the code as written. `Calibration.CheckPedestalsAllChips` and `Calibration.SetPedestals` are the corrected check. `Calibration.PedestalReadsSucceed` proves that every selected channel of a valid table can be read.

=== FILE: alibava.dfy ===
/** The chip selection of an Alibava readout processor and the fixed sizes of
    the readout: how many chips a board carries and how many channels a chip
    reads out. */
module Alibava {

  /** Number of readout chips on a board. The mask grid has one row per chip. */
  const NOOFCHIPS: nat := 2

  /** Number of channels of one chip; a calibration vector is valid only with
      exactly this many entries. */
  const NOOFCHANNELS: nat := 128

  /** Every selected chip ID can index the mask grid directly. */
  predicate ValidSelection(chips: seq<int>) {
    forall i :: 0 <= i < |chips| ==> 0 <= chips[i] < NOOFCHIPS
  }

  predicate Ascending(chips: seq<int>) {
    forall i, j :: 0 <= i < j < |chips| ==> chips[i] <= chips[j]
  }

  /** Linear scan of the selection for `chip`. */
  function IsChipValid(chips: seq<int>, chip: int): (valid: bool)
    ensures valid <==> chip in chips
  {
    if |chips| == 0 then false
    else if chips[0] == chip then true
    else IsChipValid(chips[1..], chip)
  }

  /** Only the upper bound is checked: a negative channel number passes. */
  function IsChannelValid(channel: int): bool {
    channel < NOOFCHANNELS
  }

  /** The conversion of an `int` to the `unsigned int` the chip-number getters return. */
  function AsUnsigned(x: int): nat {
    x % 0x1_0000_0000
  }

  /** The first selected chip, read as unsigned. The selection is expected to
      be ascending; then this is the smallest selected chip. */
  function GetMinChipNumber(chips: seq<int>): (n: nat)
    requires |chips| > 0
    ensures ValidSelection(chips) ==> n in chips
    ensures ValidSelection(chips) && Ascending(chips) ==> forall c :: c in chips ==> n <= c
  {
    AsUnsigned(chips[0])
  }

  /** The last selected chip, read as unsigned. The selection is expected to
      be ascending; then this is the largest selected chip. */
  function GetMaxChipNumber(chips: seq<int>): (n: nat)
    requires |chips| > 0
    ensures ValidSelection(chips) ==> n in chips
    ensures ValidSelection(chips) && Ascending(chips) ==> forall c :: c in chips ==> c <= n
  {
    AsUnsigned(chips[|chips| - 1])
  }
}

=== FILE: booking.dfy ===
/** The histograms the correlator books on its first usable event: which
    (external, internal) sensor pairs get correlation and shift histograms,
    and how many bins each axis has. Names, titles, directories and the
    physical ranges of the hit histograms belong to the histogram backend and
    are not modelled; a histogram is identified by its key and described by
    its axes. */
module Booking {
  import opened PlaneOrder

  /** A fixed-width axis of `bins` bins from `lo` to `hi`. */
  datatype Axis = Axis(bins: int, lo: real, hi: real)

  /** The two axes of a 2-D histogram. */
  datatype Axes = Axes(x: Axis, y: Axis)

  /** The bin counts of a 2-D hit histogram (its ranges are not modelled). */
  datatype HitBinning = HitBinning(xBins: int, yBins: int)

  /** Every bin of the axis is exactly one pixel wide. */
  predicate UnitWidth(a: Axis) {
    a.hi - a.lo == a.bins as real
  }

  /** The width of each bin. */
  function BinWidth(a: Axis): real
    requires a.bins > 0
  {
    (a.hi - a.lo) / (a.bins as real)
  }

  /** The centre of bin `k`, counting from 0: the lower edge plus half a bin
      width, as the offset extraction computes it. */
  function BinCentre(a: Axis, k: int): real
    requires a.bins > 0
  {
    a.lo + k as real * BinWidth(a) + BinWidth(a) / 2.0
  }

  /** The axis of a cluster correlation histogram for pixels `min..max`:
      one bin per pixel, each centred on its pixel number. */
  function CorrelationAxis(min: int, max: int): (a: Axis)
    ensures UnitWidth(a)
    ensures min <= max ==> a.bins > 0 && forall k :: 0 <= k < a.bins ==> BinCentre(a, k) == (min + k) as real
  {
    var a := Axis(max - min + 1, min as real - 0.5, max as real + 0.5);
    assert a.bins > 0 ==> BinWidth(a) == 1.0;
    a
  }

  /** The axis of a shift histogram and of its projection for a sensor whose
      highest pixel is `max`: one bin per possible shift `-max..max`, each
      centred on its shift. */
  function ShiftAxis(max: int): (a: Axis)
    ensures UnitWidth(a) && a.lo == -a.hi
    ensures 0 <= max ==> a.bins > 0 && forall k :: 0 <= k < a.bins ==> BinCentre(a, k) == (k - max) as real
  {
    var a := Axis(max + max + 1, -(max as real) - 0.5, max as real + 0.5);
    assert a.hi - a.lo == a.bins as real;
    assert a.bins > 0 ==> BinWidth(a) == 1.0;
    a
  }

  /** The Y shift axis as booked: the bin count adds the lowest row instead
      of the highest, over the same symmetric range as `ShiftAxis`. Its bins
      are one pixel wide only when the two coincide. */
  function ShiftAxisYAsWritten(min: int, max: int): (a: Axis)
    ensures a.lo == -a.hi && a.hi == max as real + 0.5
    ensures UnitWidth(a) <==> min == max
  {
    Axis(max + min + 1, -(max as real) - 0.5, max as real + 0.5)
  }

  /** A sensor with three pixel rows (rows 0..2): the Y shift axis as booked
      has 3 bins over a span of 5, so a bin is not a row wide and bin centres
      are not whole shifts, while `ShiftAxis` gives 5 unit bins. */
  lemma ShiftAxisYAsWrittenCounterexample()
    ensures ShiftAxisYAsWritten(0, 2).bins == 3
    ensures ShiftAxisYAsWritten(0, 2).hi - ShiftAxisYAsWritten(0, 2).lo == 5.0
    ensures !UnitWidth(ShiftAxisYAsWritten(0, 2))
    ensures ShiftAxis(2).bins == 5 && UnitWidth(ShiftAxis(2))
  {
  }

  /** Bins of one axis of a hit histogram: two per pixel on small sensors,
      otherwise capped at 512 to limit memory. */
  function HitBins(npixel: int): (b: int)
    ensures b <= 512
    ensures 0 <= npixel < 255 ==> b == 2 * npixel
    ensures npixel >= 255 ==> b == 512
  {
    if npixel < 255 then 2 * npixel else 512
  }

  /** The four cluster histograms of one (external, internal) pair: position
      correlation in X and Y, and shift (internal minus external) in X and Y. */
  datatype ClusterHistos = ClusterHistos(corrX: Axes, corrY: Axes, shiftX: Axes, shiftY: Axes)

  /** The two hit correlation histograms of one pair. */
  datatype HitHistos = HitHistos(corrX: HitBinning, corrY: HitBinning)

  /** The shift projections of one sensor, in X and Y. */
  datatype Projections = Projections(x: Axis, y: Axis)

  /** The histograms booked, keyed by (external, internal) sensor ID for the
      pair histograms and by sensor ID for the projections. A key without an
      entry is a null histogram. */
  datatype Booking = Booking(
    clusters: map<(int, int), ClusterHistos>,
    projections: map<int, Projections>,
    hits: map<(int, int), HitHistos>)

  /** Nothing booked yet. */
  const NoBooking: Booking := Booking(map[], map[], map[])

  /** Sensors with at least one pixel in each direction. */
  predicate PixelsPositive(planes: seq<Plane>) {
    forall j :: 0 <= j < |planes| ==> planes[j].npixX >= 1 && planes[j].npixY >= 1
  }

  /** The (row, col) sensor pairs that get histograms: both sensors of the
      geometry, `col` the next one downstream of `row`. */
  function BookedPairs(planes: seq<Plane>): (pairs: set<(int, int)>)
    ensures forall r, c :: (r, c) in pairs <==> r in SensorIDs(planes) && c in SensorIDs(planes) && Neighbours(ZOrderMap(planes), r, c)
  {
    var ids := SensorIDs(planes);
    set r, c | r in ids && c in ids && Neighbours(ZOrderMap(planes), r, c) :: (r, c)
  }

  /** The Y shift axis of a sensor whose highest row is `max`: as booked,
      with the lowest row 0 added in place of the highest, or corrected to
      one bin per shift like X. */
  function ShiftAxisY(max: int, corrected: bool): (a: Axis)
    ensures a.lo == -(max as real) - 0.5 && a.hi == max as real + 0.5
    ensures corrected ==> a.bins == 2 * max + 1
    ensures !corrected ==> a.bins == max + 1
  {
    if corrected then ShiftAxis(max) else ShiftAxisYAsWritten(0, max)
  }

  /** The cluster histograms of pair (`row`, `col`). Pixel ranges start at 0;
      the highest pixel is the one of the last plane with the ID. */
  function BookClusterPair(planes: seq<Plane>, row: int, col: int, corrected: bool): ClusterHistos {
    ClusterHistos(
      Axes(CorrelationAxis(0, MaxX(planes, row)), CorrelationAxis(0, MaxX(planes, col))),
      Axes(CorrelationAxis(0, MaxY(planes, row)), CorrelationAxis(0, MaxY(planes, col))),
      Axes(ShiftAxis(MaxX(planes, row)), ShiftAxis(MaxX(planes, col))),
      Axes(ShiftAxisY(MaxY(planes, row), corrected), ShiftAxisY(MaxY(planes, col), corrected)))
  }

  /** The projections of sensor `id`, binned like its shift axes. */
  function BookProjections(planes: seq<Plane>, id: int, corrected: bool): Projections {
    Projections(ShiftAxis(MaxX(planes, id)), ShiftAxisY(MaxY(planes, id), corrected))
  }

  /** The hit histograms of pair (`row`, `col`): the x axis binned after the
      internal plane, the y axis after the external one. */
  function BookHitPair(planes: seq<Plane>, row: int, col: int): HitHistos {
    HitHistos(
      HitBinning(HitBins(NpixelX(planes, col)), HitBins(NpixelX(planes, row))),
      HitBinning(HitBins(NpixelY(planes, col)), HitBins(NpixelY(planes, row))))
  }

  /** The booking with the Y shift axes as booked or corrected. */
  function BookWith(planes: seq<Plane>, hasCluster: bool, hasHit: bool, corrected: bool): (b: Booking)
    ensures forall r, c :: (r, c) in b.clusters <==> hasCluster && (r, c) in BookedPairs(planes)
    ensures forall r, c :: (r, c) in b.hits <==> hasHit && (r, c) in BookedPairs(planes)
    ensures forall id :: id in b.projections <==> hasCluster && id in SensorIDs(planes)
  {
    var pairs := if hasCluster then BookedPairs(planes) else {};
    var hitPairs := if hasHit then BookedPairs(planes) else {};
    var ids := if hasCluster then SensorIDs(planes) else {};
    Booking(
      map p | p in pairs :: BookClusterPair(planes, p.0, p.1, corrected),
      map id | id in ids :: BookProjections(planes, id, corrected),
      map p | p in hitPairs :: BookHitPair(planes, p.0, p.1))
  }

  /** `bookHistos`: the cluster histograms and projections when the first
      event had clusters, the hit histograms when it had hits, with the Y
      shift axes as booked. */
  function BookHistos(planes: seq<Plane>, hasCluster: bool, hasHit: bool): (b: Booking)
    ensures forall r, c :: (r, c) in b.clusters <==> hasCluster && (r, c) in BookedPairs(planes)
    ensures forall r, c :: (r, c) in b.hits <==> hasHit && (r, c) in BookedPairs(planes)
    ensures forall id :: id in b.projections <==> hasCluster && id in SensorIDs(planes)
  {
    BookWith(planes, hasCluster, hasHit, false)
  }

  /** `bookHistos` with the Y shift axes and projections corrected to
      2 max + 1 bins, like X. */
  function BookHistosCorrected(planes: seq<Plane>, hasCluster: bool, hasHit: bool): (b: Booking)
    ensures forall r, c :: (r, c) in b.clusters <==> hasCluster && (r, c) in BookedPairs(planes)
    ensures forall r, c :: (r, c) in b.hits <==> hasHit && (r, c) in BookedPairs(planes)
    ensures forall id :: id in b.projections <==> hasCluster && id in SensorIDs(planes)
  {
    BookWith(planes, hasCluster, hasHit, true)
  }

  /** A sensor is never paired with itself. */
  lemma NoSelfPair(planes: seq<Plane>, hasCluster: bool, hasHit: bool, id: int)
    ensures (id, id) !in BookHistos(planes, hasCluster, hasHit).clusters
    ensures (id, id) !in BookHistos(planes, hasCluster, hasHit).hits
  {
    NoSelfNeighbour(ZOrderMap(planes), id);
  }

  /** As booked, every cluster histogram axis has one-pixel bins except the
      Y shift axes, which do only for a sensor with a single row. */
  lemma ClusterAxesUnitWidth(planes: seq<Plane>, hasCluster: bool, hasHit: bool, r: int, c: int)
    requires (r, c) in BookHistos(planes, hasCluster, hasHit).clusters
    ensures var h := BookHistos(planes, hasCluster, hasHit).clusters[(r, c)];
      && UnitWidth(h.corrX.x) && UnitWidth(h.corrX.y) && UnitWidth(h.corrY.x) && UnitWidth(h.corrY.y)
      && UnitWidth(h.shiftX.x) && UnitWidth(h.shiftX.y)
      && (UnitWidth(h.shiftY.x) <==> MaxY(planes, r) == 0)
      && (UnitWidth(h.shiftY.y) <==> MaxY(planes, c) == 0)
  {
  }

  /** With the corrected Y shift axes every cluster histogram axis has
      one-pixel bins. */
  lemma CorrectedClusterAxesUnitWidth(planes: seq<Plane>, hasCluster: bool, hasHit: bool, r: int, c: int)
    requires (r, c) in BookHistosCorrected(planes, hasCluster, hasHit).clusters
    ensures var h := BookHistosCorrected(planes, hasCluster, hasHit).clusters[(r, c)];
      && UnitWidth(h.corrX.x) && UnitWidth(h.corrX.y) && UnitWidth(h.corrY.x) && UnitWidth(h.corrY.y)
      && UnitWidth(h.shiftX.x) && UnitWidth(h.shiftX.y) && UnitWidth(h.shiftY.x) && UnitWidth(h.shiftY.y)
  {
  }

  /** The projections of the internal sensor have exactly the binning of the
      shift axes they are filled from, so the offset extraction reads one
      projection bin per shift bin. */
  lemma ProjectionsMatchShifts(planes: seq<Plane>, hasCluster: bool, hasHit: bool, r: int, c: int)
    requires (r, c) in BookHistos(planes, hasCluster, hasHit).clusters
    ensures var b := BookHistos(planes, hasCluster, hasHit);
      && c in b.projections
      && b.projections[c].x == b.clusters[(r, c)].shiftX.y
      && b.projections[c].y == b.clusters[(r, c)].shiftY.y
  {
  }

  /** Hit histograms never exceed 512 bins on an axis. */
  lemma HitBinsBounded(planes: seq<Plane>, hasCluster: bool, hasHit: bool, r: int, c: int)
    requires PixelsPositive(planes)
    requires (r, c) in BookHistos(planes, hasCluster, hasHit).hits
    ensures var h := BookHistos(planes, hasCluster, hasHit).hits[(r, c)];
      && 0 < h.corrX.xBins <= 512 && 0 < h.corrX.yBins <= 512
      && 0 < h.corrY.xBins <= 512 && 0 < h.corrY.yBins <= 512
  {
  }
}

=== FILE: calibration.dfy ===
/** Pedestal, noise and charge-calibration tables of an Alibava readout
    processor: per-chip vectors loaded for the selected chips, a validity flag
    per table, and per-channel getters that fall back to 0 when the flag is
    down. */
module Calibration {
  import opened Wrappers
  import opened Alibava

  /** One value per channel, keyed by chip number. */
  type ChipValues = map<int, seq<real>>

  /** The vector stored for `chip`, or the empty vector that the map's
      subscript operator would insert. */
  function Lookup(m: ChipValues, chip: int): seq<real> {
    if chip in m then m[chip] else []
  }

  /** The map's subscript operator used as a read: a missing key gets an
      empty vector. */
  function Touch(m: ChipValues, chip: int): (r: ChipValues)
    ensures r.Keys == m.Keys + {chip}
    ensures forall c :: Lookup(r, c) == Lookup(m, c)
  {
    if chip in m then m else m[chip := []]
  }

  /** `Touch` for every chip of a selection, in order. */
  function TouchAll(m: ChipValues, chips: seq<int>): (r: ChipValues)
    ensures r.Keys == m.Keys + set i | 0 <= i < |chips| :: chips[i]
    ensures forall c :: Lookup(r, c) == Lookup(m, c)
    decreases |chips|
  {
    if |chips| == 0 then m
    else
      var r := TouchAll(Touch(m, chips[0]), chips[1..]);
      assert (set i | 0 <= i < |chips| :: chips[i]) == {chips[0]} + set i | 0 <= i < |chips[1..]| :: chips[1..][i];
      r
  }

  /** The map's `insert` for every chip of a selection, in order: a chip that
      already has a vector keeps it. */
  function LoadInto(m: ChipValues, chips: seq<int>, load: int -> seq<real>): (r: ChipValues)
    ensures r.Keys == m.Keys + set i | 0 <= i < |chips| :: chips[i]
    ensures forall c :: c in m ==> r[c] == m[c]
    ensures forall i :: 0 <= i < |chips| && chips[i] !in m ==> r[chips[i]] == load(chips[i])
    decreases |chips|
  {
    if |chips| == 0 then m
    else
      var m1 := if chips[0] in m then m else m[chips[0] := load(chips[0])];
      var r := LoadInto(m1, chips[1..], load);
      assert (set i | 0 <= i < |chips| :: chips[i]) == {chips[0]} + set i | 0 <= i < |chips[1..]| :: chips[1..][i];
      assert forall i :: 1 <= i < |chips| ==> chips[i] == chips[1..][i - 1];
      r
  }

  /** Some chip of the selection has a full vector. */
  function AnySized(m: ChipValues, chips: seq<int>): (b: bool)
    ensures b <==> exists i :: 0 <= i < |chips| && |Lookup(m, chips[i])| == NOOFCHANNELS
  {
    if |chips| == 0 then false
    else
      var rest := AnySized(m, chips[1..]);
      assert forall i :: 1 <= i < |chips| ==> chips[i] == chips[1..][i - 1];
      assert rest ==> exists i :: 0 <= i < |chips| && |Lookup(m, chips[i])| == NOOFCHANNELS by {
        if rest {
          var j :| 0 <= j < |chips[1..]| && |Lookup(m, chips[1..][j])| == NOOFCHANNELS;
          assert chips[j + 1] == chips[1..][j];
        }
      }
      |Lookup(m, chips[0])| == NOOFCHANNELS || rest
  }

  /** Every chip of the selection has a full vector. */
  function AllSized(m: ChipValues, chips: seq<int>): (b: bool)
    ensures b <==> forall i :: 0 <= i < |chips| ==> |Lookup(m, chips[i])| == NOOFCHANNELS
  {
    if |chips| == 0 then true
    else
      var rest := AllSized(m, chips[1..]);
      assert forall i :: 1 <= i < |chips| ==> chips[i] == chips[1..][i - 1];
      assert !rest ==> exists i :: 0 <= i < |chips| && |Lookup(m, chips[i])| != NOOFCHANNELS by {
        if !rest {
          var j :| 0 <= j < |chips[1..]| && |Lookup(m, chips[1..][j])| != NOOFCHANNELS;
          assert chips[j + 1] == chips[1..][j];
        }
      }
      |Lookup(m, chips[0])| == NOOFCHANNELS && rest
  }

  /** A table: the collection it is read from (`None` while unset) and the
      vectors read so far. */
  datatype Table = Table(collection: Option<string>, values: ChipValues)

  /** What the processor keeps about calibration. */
  datatype Store = Store(
    chips: seq<int>,
    pedestalFile: Option<string>,
    calibrationFile: Option<string>,
    pedestal: Table,
    noise: Table,
    chargeCal: Table,
    isPedestalValid: bool,
    isNoiseValid: bool,
    isCalibrationValid: bool)

  /** The I/O manager's read of one chip's vector from a collection of a file.
      Unset names are passed on as `None`. */
  type Fetch = (Option<string>, Option<string>, int) -> seq<real>

  /** A freshly constructed processor: nothing selected, nothing named,
      nothing loaded, nothing valid. */
  function NewStore(): (st: Store)
    ensures st.chips == [] && st.pedestal.values == map[] && st.noise.values == map[] && st.chargeCal.values == map[]
    ensures st.pedestal.collection.None? && st.noise.collection.None? && st.chargeCal.collection.None?
    ensures !st.isPedestalValid && !st.isNoiseValid && !st.isCalibrationValid
  {
    Store([], None, None, Table(None, map[]), Table(None, map[]), Table(None, map[]), false, false, false)
  }

  // ---------------------------------------------------------------------
  // Pedestals and noise
  // ---------------------------------------------------------------------

  /** Loading one table for the selection, when its collection is named. */
  function LoadTable(t: Table, file: Option<string>, chips: seq<int>, fetch: Fetch): (r: Table)
    ensures r.collection == t.collection
    ensures t.collection.None? ==> r == t
    ensures t.collection.Some? ==> r.values.Keys == t.values.Keys + set i | 0 <= i < |chips| :: chips[i]
    ensures forall c :: c in t.values ==> r.values[c] == t.values[c]
    ensures t.collection.Some? ==> forall i :: 0 <= i < |chips| ==>
      Lookup(r.values, chips[i]) == if chips[i] in t.values then t.values[chips[i]] else fetch(file, t.collection, chips[i])
  {
    if t.collection.Some? then t.(values := LoadInto(t.values, chips, c => fetch(file, t.collection, c))) else t
  }

  /** The vector a chip holds after loading: the one it had, or else the one
      fetched. */
  function Loaded(t: Table, file: Option<string>, fetch: Fetch, chip: int): seq<real> {
    if chip in t.values then t.values[chip] else fetch(file, t.collection, chip)
  }

  lemma LoadedTable(t: Table, file: Option<string>, chips: seq<int>, fetch: Fetch)
    ensures t.collection.Some? ==> forall i :: 0 <= i < |chips| ==>
      Lookup(LoadTable(t, file, chips, fetch).values, chips[i]) == Loaded(t, file, fetch, chips[i])
  {
  }

  /** The loading loop of `setPedestals`: pedestal and noise vectors both come
      from the pedestal file. */
  function LoadPedestals(st: Store, fetch: Fetch): Store
  {
    st.(pedestal := LoadTable(st.pedestal, st.pedestalFile, st.chips, fetch),
        noise := LoadTable(st.noise, st.pedestalFile, st.chips, fetch))
  }

  /** `checkPedestals` for one table as written: a named table is read for
      every selected chip and is valid as soon as ONE of them has a full
      vector. */
  function CheckTableAny(t: Table, chips: seq<int>): (r: (Table, bool))
    ensures r.0.collection == t.collection
    ensures forall c :: Lookup(r.0.values, c) == Lookup(t.values, c)
    ensures r.1 <==> t.collection.Some? && exists i :: 0 <= i < |chips| && |Lookup(t.values, chips[i])| == NOOFCHANNELS
  {
    if t.collection.Some? then (t.(values := TouchAll(t.values, chips)), AnySized(t.values, chips))
    else (t, false)
  }

  /** `checkPedestals` as written. */
  function CheckPedestals(st: Store): (r: Store)
    ensures r.chips == st.chips && r.isCalibrationValid == st.isCalibrationValid && r.chargeCal == st.chargeCal
    ensures forall c :: Lookup(r.pedestal.values, c) == Lookup(st.pedestal.values, c)
    ensures forall c :: Lookup(r.noise.values, c) == Lookup(st.noise.values, c)
    ensures r.isPedestalValid <==> (st.pedestal.collection.Some? &&
      exists i :: 0 <= i < |st.chips| && |Lookup(st.pedestal.values, st.chips[i])| == NOOFCHANNELS)
    ensures r.isNoiseValid <==> (st.noise.collection.Some? &&
      exists i :: 0 <= i < |st.chips| && |Lookup(st.noise.values, st.chips[i])| == NOOFCHANNELS)
  {
    var (p, pValid) := CheckTableAny(st.pedestal, st.chips);
    var (n, nValid) := CheckTableAny(st.noise, st.chips);
    st.(pedestal := p, noise := n, isPedestalValid := pValid, isNoiseValid := nValid)
  }

  /** What loading leaves in table `r` in place of `t`: the collection name
      is kept; a named table holds, for every selected chip, the vector it
      had or else the fetched one, keeps every vector it already had, and
      changes no chip outside the selection; an unnamed table is untouched. */
  ghost predicate TableLoaded(t: Table, file: Option<string>, chips: seq<int>, fetch: Fetch, r: Table) {
    && r.collection == t.collection
    && (forall c :: c in t.values ==> Lookup(r.values, c) == t.values[c])
    && (forall c :: c !in chips ==> Lookup(r.values, c) == Lookup(t.values, c))
    && (t.collection.Some? ==> forall i :: 0 <= i < |chips| ==>
          Lookup(r.values, chips[i]) == Loaded(t, file, fetch, chips[i]))
    && (t.collection.None? ==> r == t)
  }

  /** `LoadTable` leaves the table loaded. */
  lemma LoadTableLoaded(t: Table, file: Option<string>, chips: seq<int>, fetch: Fetch)
    ensures TableLoaded(t, file, chips, fetch, LoadTable(t, file, chips, fetch))
  {
    LoadedTable(t, file, chips, fetch);
  }

  /** A read that changes no vector and, for an unnamed table, nothing at all
      keeps a table loaded. */
  lemma TableLoadedSurvivesRead(t: Table, file: Option<string>, chips: seq<int>, fetch: Fetch, m: Table, r: Table)
    requires TableLoaded(t, file, chips, fetch, m)
    requires r.collection == m.collection
    requires forall c :: Lookup(r.values, c) == Lookup(m.values, c)
    requires m.collection.None? ==> r == m
    ensures TableLoaded(t, file, chips, fetch, r)
  {
  }

  /** What `setPedestals`'s loading loop leaves in the store `r`: both tables
      are loaded from the pedestal file, and the selection and the charge
      calibration are untouched. */
  ghost predicate PedestalsLoaded(st: Store, fetch: Fetch, r: Store) {
    && r.chips == st.chips && r.chargeCal == st.chargeCal && r.isCalibrationValid == st.isCalibrationValid
    && TableLoaded(st.pedestal, st.pedestalFile, st.chips, fetch, r.pedestal)
    && TableLoaded(st.noise, st.pedestalFile, st.chips, fetch, r.noise)
  }

  /** The loading loop establishes `PedestalsLoaded`. */
  lemma LoadPedestalsLoaded(st: Store, fetch: Fetch)
    ensures PedestalsLoaded(st, fetch, LoadPedestals(st, fetch))
  {
    LoadTableLoaded(st.pedestal, st.pedestalFile, st.chips, fetch);
    LoadTableLoaded(st.noise, st.pedestalFile, st.chips, fetch);
  }

  /** A check that reads the tables without changing any vector, name or
      unnamed table keeps `PedestalsLoaded`. */
  lemma LoadedSurvivesCheck(st: Store, fetch: Fetch, m: Store, r: Store)
    requires PedestalsLoaded(st, fetch, m)
    requires r.chips == m.chips && r.chargeCal == m.chargeCal && r.isCalibrationValid == m.isCalibrationValid
    requires r.pedestal.collection == m.pedestal.collection && r.noise.collection == m.noise.collection
    requires forall c :: Lookup(r.pedestal.values, c) == Lookup(m.pedestal.values, c)
    requires forall c :: Lookup(r.noise.values, c) == Lookup(m.noise.values, c)
    requires m.pedestal.collection.None? ==> r.pedestal == m.pedestal
    requires m.noise.collection.None? ==> r.noise == m.noise
    ensures PedestalsLoaded(st, fetch, r)
  {
    TableLoadedSurvivesRead(st.pedestal, st.pedestalFile, st.chips, fetch, m.pedestal, r.pedestal);
    TableLoadedSurvivesRead(st.noise, st.pedestalFile, st.chips, fetch, m.noise, r.noise);
  }

  /** `setPedestals` as written: after loading, each table is valid when it
      is named and one selected chip has a full vector, old or fetched. */
  function SetPedestalsAsWritten(st: Store, fetch: Fetch): (r: Store)
    ensures PedestalsLoaded(st, fetch, r)
    ensures r.isPedestalValid <==> (st.pedestal.collection.Some? &&
      exists i :: 0 <= i < |st.chips| && |Loaded(st.pedestal, st.pedestalFile, fetch, st.chips[i])| == NOOFCHANNELS)
    ensures r.isNoiseValid <==> (st.noise.collection.Some? &&
      exists i :: 0 <= i < |st.chips| && |Loaded(st.noise, st.pedestalFile, fetch, st.chips[i])| == NOOFCHANNELS)
  {
    var m := LoadPedestals(st, fetch);
    LoadPedestalsLoaded(st, fetch);
    var r := CheckPedestals(m);
    LoadedSurvivesCheck(st, fetch, m, r);
    r
  }

  /** The check one table evidently needs, as `checkCalibration` does it: a
      named table, a non-empty selection and a full vector for EVERY selected
      chip. */
  function CheckTableAll(t: Table, chips: seq<int>): (r: (Table, bool))
    ensures r.0.collection == t.collection
    ensures forall c :: Lookup(r.0.values, c) == Lookup(t.values, c)
    ensures r.1 <==> ((t.collection.Some? && |chips| > 0 &&
      forall i :: 0 <= i < |chips| ==> |Lookup(t.values, chips[i])| == NOOFCHANNELS))
  {
    if t.collection.Some? then (t.(values := TouchAll(t.values, chips)), |chips| > 0 && AllSized(t.values, chips))
    else (t, false)
  }

  /** `checkPedestals` with the all-chips check. */
  function CheckPedestalsAllChips(st: Store): (r: Store)
    ensures r.chips == st.chips && r.isCalibrationValid == st.isCalibrationValid && r.chargeCal == st.chargeCal
    ensures forall c :: Lookup(r.pedestal.values, c) == Lookup(st.pedestal.values, c)
    ensures forall c :: Lookup(r.noise.values, c) == Lookup(st.noise.values, c)
    ensures r.isPedestalValid <==> ((st.pedestal.collection.Some? && |st.chips| > 0 &&
      forall i :: 0 <= i < |st.chips| ==> |Lookup(st.pedestal.values, st.chips[i])| == NOOFCHANNELS))
    ensures r.isNoiseValid <==> ((st.noise.collection.Some? && |st.chips| > 0 &&
      forall i :: 0 <= i < |st.chips| ==> |Lookup(st.noise.values, st.chips[i])| == NOOFCHANNELS))
  {
    var (p, pValid) := CheckTableAll(st.pedestal, st.chips);
    var (n, nValid) := CheckTableAll(st.noise, st.chips);
    st.(pedestal := p, noise := n, isPedestalValid := pValid, isNoiseValid := nValid)
  }

  /** `setPedestals` with the all-chips check: a named table holds, for each
      selected chip, the vector it had or else the one fetched, and it is
      valid exactly when all of those are full. */
  function SetPedestals(st: Store, fetch: Fetch): (r: Store)
    ensures PedestalsLoaded(st, fetch, r)
    ensures r.isPedestalValid <==> ((st.pedestal.collection.Some? && |st.chips| > 0 &&
      forall i :: 0 <= i < |st.chips| ==> |Loaded(st.pedestal, st.pedestalFile, fetch, st.chips[i])| == NOOFCHANNELS))
    ensures r.isNoiseValid <==> ((st.noise.collection.Some? && |st.chips| > 0 &&
      forall i :: 0 <= i < |st.chips| ==> |Loaded(st.noise, st.pedestalFile, fetch, st.chips[i])| == NOOFCHANNELS))
  {
    var m := LoadPedestals(st, fetch);
    LoadPedestalsLoaded(st, fetch);
    var r := CheckPedestalsAllChips(m);
    LoadedSurvivesCheck(st, fetch, m, r);
    r
  }

  // ---------------------------------------------------------------------
  // Charge calibration
  // ---------------------------------------------------------------------

  /** `checkCalibration`: valid when the selection is non-empty and every
      selected chip has a full vector. The collection name is not consulted. */
  function CheckCalibration(st: Store): (r: Store)
    ensures r.chips == st.chips && r.pedestal == st.pedestal && r.noise == st.noise
    ensures r.isPedestalValid == st.isPedestalValid && r.isNoiseValid == st.isNoiseValid
    ensures r.chargeCal.collection == st.chargeCal.collection
    ensures forall c :: Lookup(r.chargeCal.values, c) == Lookup(st.chargeCal.values, c)
    ensures r.isCalibrationValid <==> ((|st.chips| > 0 &&
      forall i :: 0 <= i < |st.chips| ==> |Lookup(st.chargeCal.values, st.chips[i])| == NOOFCHANNELS))
  {
    st.(chargeCal := st.chargeCal.(values := TouchAll(st.chargeCal.values, st.chips)),
        isCalibrationValid := |st.chips| > 0 && AllSized(st.chargeCal.values, st.chips))
  }

  /** `setCalibration`: read every selected chip's vector from the
      calibration file, whether or not the collection is named, then check. */
  function SetCalibration(st: Store, fetch: Fetch): (r: Store)
    ensures forall i :: 0 <= i < |st.chips| ==>
      Lookup(r.chargeCal.values, st.chips[i]) == Loaded(st.chargeCal, st.calibrationFile, fetch, st.chips[i])
    ensures r.isCalibrationValid <==> ((|st.chips| > 0 &&
      forall i :: 0 <= i < |st.chips| ==> |Loaded(st.chargeCal, st.calibrationFile, fetch, st.chips[i])| == NOOFCHANNELS))
    ensures r == st.(chargeCal := r.chargeCal, isCalibrationValid := r.isCalibrationValid)
    ensures r.chargeCal.collection == st.chargeCal.collection
    ensures forall c :: c in st.chargeCal.values ==> Lookup(r.chargeCal.values, c) == st.chargeCal.values[c]
    ensures forall c :: c !in st.chips ==> Lookup(r.chargeCal.values, c) == Lookup(st.chargeCal.values, c)
  {
    var t := st.chargeCal;
    var load := c => fetch(st.calibrationFile, t.collection, c);
    LoadIntoLeavesOthers(t.values, st.chips, load);
    CheckCalibration(st.(chargeCal := t.(values := LoadInto(t.values, st.chips, load))))
  }

  // ---------------------------------------------------------------------
  // Per-channel getters
  // ---------------------------------------------------------------------

  /** A per-channel getter: 0 while the table is not valid; otherwise the
      chip's vector is read through the subscript operator (which may insert
      an empty one) and indexed, `None` standing for an index outside it. */
  function ValueAt(t: Table, valid: bool, chip: int, channel: int): (r: (Option<real>, Table))
    ensures !valid ==> r == (Some(0.0), t)
    ensures valid ==> r.1 == t.(values := Touch(t.values, chip))
    ensures valid ==> (r.0.Some? <==> 0 <= channel < |Lookup(t.values, chip)|)
    ensures valid && r.0.Some? ==> r.0.value == Lookup(t.values, chip)[channel]
  {
    if !valid then (Some(0.0), t)
    else
      var v := Lookup(t.values, chip);
      (if 0 <= channel < |v| then Some(v[channel]) else None, t.(values := Touch(t.values, chip)))
  }

  function PedestalAtChannel(st: Store, chip: int, channel: int): (r: (Option<real>, Store))
    ensures !st.isPedestalValid ==> r == (Some(0.0), st)
    ensures st.isPedestalValid ==> (r.0.Some? <==> 0 <= channel < |Lookup(st.pedestal.values, chip)|)
    ensures st.isPedestalValid && r.0.Some? ==> r.0.value == Lookup(st.pedestal.values, chip)[channel]
    ensures r.1.noise == st.noise && r.1.chargeCal == st.chargeCal && r.1.isPedestalValid == st.isPedestalValid
    ensures r.1 == st.(pedestal := r.1.pedestal)
    ensures r.1.pedestal.collection == st.pedestal.collection && forall c :: Lookup(r.1.pedestal.values, c) == Lookup(st.pedestal.values, c)
  {
    var (v, t) := ValueAt(st.pedestal, st.isPedestalValid, chip, channel);
    (v, st.(pedestal := t))
  }

  function NoiseAtChannel(st: Store, chip: int, channel: int): (r: (Option<real>, Store))
    ensures !st.isNoiseValid ==> r == (Some(0.0), st)
    ensures st.isNoiseValid ==> (r.0.Some? <==> 0 <= channel < |Lookup(st.noise.values, chip)|)
    ensures st.isNoiseValid && r.0.Some? ==> r.0.value == Lookup(st.noise.values, chip)[channel]
    ensures r.1.pedestal == st.pedestal && r.1.chargeCal == st.chargeCal && r.1.isNoiseValid == st.isNoiseValid
    ensures r.1 == st.(noise := r.1.noise)
    ensures r.1.noise.collection == st.noise.collection && forall c :: Lookup(r.1.noise.values, c) == Lookup(st.noise.values, c)
  {
    var (v, t) := ValueAt(st.noise, st.isNoiseValid, chip, channel);
    (v, st.(noise := t))
  }

  function ChargeCalAtChannel(st: Store, chip: int, channel: int): (r: (Option<real>, Store))
    ensures !st.isCalibrationValid ==> r == (Some(0.0), st)
    ensures st.isCalibrationValid ==> (r.0.Some? <==> 0 <= channel < |Lookup(st.chargeCal.values, chip)|)
    ensures st.isCalibrationValid && r.0.Some? ==> r.0.value == Lookup(st.chargeCal.values, chip)[channel]
    ensures r.1.pedestal == st.pedestal && r.1.noise == st.noise && r.1.isCalibrationValid == st.isCalibrationValid
    ensures r.1 == st.(chargeCal := r.1.chargeCal)
    ensures r.1.chargeCal.collection == st.chargeCal.collection && forall c :: Lookup(r.1.chargeCal.values, c) == Lookup(st.chargeCal.values, c)
  {
    var (v, t) := ValueAt(st.chargeCal, st.isCalibrationValid, chip, channel);
    (v, st.(chargeCal := t))
  }

  // ---------------------------------------------------------------------
  // Properties
  // ---------------------------------------------------------------------

  /** With the all-chips check, a valid pedestal table can be read at every
      channel of every selected chip. */
  lemma PedestalReadsSucceed(st: Store, fetch: Fetch, chip: int, channel: int)
    requires SetPedestals(st, fetch).isPedestalValid
    requires chip in st.chips && 0 <= channel < NOOFCHANNELS
    ensures PedestalAtChannel(SetPedestals(st, fetch), chip, channel).0.Some?
  {
    var loaded := LoadPedestals(st, fetch);
    var i :| 0 <= i < |st.chips| && st.chips[i] == chip;
    assert |Lookup(loaded.pedestal.values, chip)| == NOOFCHANNELS;
  }

  /** Likewise for the charge calibration, whose check already covers every
      selected chip. */
  lemma ChargeCalReadsSucceed(st: Store, fetch: Fetch, chip: int, channel: int)
    requires SetCalibration(st, fetch).isCalibrationValid
    requires chip in st.chips && 0 <= channel < NOOFCHANNELS
    ensures ChargeCalAtChannel(SetCalibration(st, fetch), chip, channel).0.Some?
  {
    var i :| 0 <= i < |st.chips| && st.chips[i] == chip;
  }

  /** Loading never replaces a vector already present, so loading after a
      failed load (which left empty vectors behind) does not repair it. */
  lemma LoadKeepsExisting(st: Store, fetch: Fetch, chip: int)
    requires chip in st.pedestal.values
    ensures Lookup(SetPedestals(st, fetch).pedestal.values, chip) == st.pedestal.values[chip]
  {
  }

  /** Touching keys that are all present changes nothing. */
  lemma TouchAllPresent(m: ChipValues, chips: seq<int>)
    requires forall i :: 0 <= i < |chips| ==> chips[i] in m
    ensures TouchAll(m, chips) == m
  {
    var r := TouchAll(m, chips);
    assert forall c :: c in m ==> r[c] == Lookup(r, c) == Lookup(m, c) == m[c];
  }

  /** Loading keys that are all present changes nothing. */
  lemma LoadIntoPresent(m: ChipValues, chips: seq<int>, load: int -> seq<real>)
    requires forall i :: 0 <= i < |chips| ==> chips[i] in m
    ensures LoadInto(m, chips, load) == m
  {
  }

  /** Loading never touches a chip outside the selection. */
  lemma LoadIntoLeavesOthers(m: ChipValues, chips: seq<int>, load: int -> seq<real>)
    ensures forall c :: c !in chips ==> Lookup(LoadInto(m, chips, load), c) == Lookup(m, c)
  {
    var r := LoadInto(m, chips, load);
    forall c | c !in chips
      ensures Lookup(r, c) == Lookup(m, c)
    {
      assert c !in set i | 0 <= i < |chips| :: chips[i];
    }
  }

  /** After `setCalibration` every selected chip has a vector; the selection,
      the file and the collection are as they were. */
  lemma SetCalibrationCovers(st: Store, fetch: Fetch)
    ensures var r := SetCalibration(st, fetch);
      && r.chips == st.chips && r.calibrationFile == st.calibrationFile
      && r.chargeCal.collection == st.chargeCal.collection
      && forall i :: 0 <= i < |r.chips| ==> r.chips[i] in r.chargeCal.values
  {
  }

  /** A second `setCalibration` with the same reader changes nothing. */
  lemma SetCalibrationIdempotent(st: Store, fetch: Fetch)
    ensures SetCalibration(SetCalibration(st, fetch), fetch) == SetCalibration(st, fetch)
  {
    var once := SetCalibration(st, fetch);
    var t := once.chargeCal;
    var load := c => fetch(once.calibrationFile, t.collection, c);
    SetCalibrationCovers(st, fetch);
    LoadIntoPresent(t.values, once.chips, load);
    TouchAllPresent(t.values, once.chips);
    assert SetCalibration(once, fetch) == CheckCalibration(once);
  }

  /** When the reader delivers full vectors for every selected chip of a fresh
      store, the pedestal check passes. */
  lemma FullVectorsAreValid(st: Store, fetch: Fetch)
    requires st.pedestal.values == map[] && st.pedestal.collection.Some? && |st.chips| > 0
    requires forall c :: |fetch(st.pedestalFile, st.pedestal.collection, c)| == NOOFCHANNELS
    ensures SetPedestals(st, fetch).isPedestalValid
  {
    var loaded := LoadPedestals(st, fetch);
    forall i | 0 <= i < |st.chips|
      ensures |Lookup(loaded.pedestal.values, st.chips[i])| == NOOFCHANNELS
    {
      assert st.chips[i] in loaded.pedestal.values;
    }
  }

  /** A selection whose second chip came back short. */
  function ShortSecondChip(): (st: Store)
    ensures st.chips == [0, 1] && st.pedestal.collection.Some?
  {
    Store([0, 1], None, None, Table(Some("pedestal"), map[0 := seq(NOOFCHANNELS, _ => 0.0), 1 := []]),
      Table(None, map[]), Table(None, map[]), false, false, false)
  }

  /** As written, one full chip makes the pedestals valid, and a read of the
      short chip then falls outside its vector. */
  lemma ShortChipPassesCheck()
    ensures CheckPedestals(ShortSecondChip()).isPedestalValid
    ensures PedestalAtChannel(CheckPedestals(ShortSecondChip()), 1, 0).0.None?
  {
    var st := ShortSecondChip();
    assert |Lookup(st.pedestal.values, st.chips[0])| == NOOFCHANNELS;
  }

  /** With the all-chips check the same store is not valid, and the read falls
      back to 0. */
  lemma ShortChipFailsAllChipsCheck()
    ensures !CheckPedestalsAllChips(ShortSecondChip()).isPedestalValid
    ensures PedestalAtChannel(CheckPedestalsAllChips(ShortSecondChip()), 1, 0).0 == Some(0.0)
  {
    var st := ShortSecondChip();
    assert |Lookup(st.pedestal.values, st.chips[1])| != NOOFCHANNELS;
  }
}

=== FILE: channel_mask.dfy ===
/** Channel masking of an Alibava readout: a boolean grid indexed by chip and
    channel, reset wholesale, and rebuilt from a list of `$chip:from-to$`
    strings naming the channel ranges to use (everything else is masked). */
module ChannelMask {
  import opened Wrappers
  import opened Decimal
  import opened Alibava

  /** `isMasked[chip][channel]`. */
  type Grid = seq<seq<bool>>

  predicate WellShaped(g: Grid) {
    |g| == NOOFCHIPS && forall c :: 0 <= c < |g| ==> |g[c]| == NOOFCHANNELS
  }

  /** The masking state of a processor: the chip selection, the configured
      channels-to-be-used strings, and the grid. */
  datatype MaskRegistry = MaskRegistry(chips: seq<int>, channelsToBeUsed: seq<string>, isMasked: Grid)

  predicate Valid(reg: MaskRegistry) {
    ValidSelection(reg.chips) && WellShaped(reg.isMasked)
  }

  /** Every entry of the grid set to `b`. */
  function SetAllMasksTo(b: bool): (g: Grid)
    ensures WellShaped(g)
    ensures forall c, ch :: 0 <= c < NOOFCHIPS && 0 <= ch < NOOFCHANNELS ==> g[c][ch] == b
  {
    seq(NOOFCHIPS, c => seq(NOOFCHANNELS, ch => b))
  }

  /** A freshly constructed processor: no selection, no strings, nothing masked. */
  function NewRegistry(): (reg: MaskRegistry)
    ensures Valid(reg) && reg.channelsToBeUsed == []
    ensures forall c, ch :: 0 <= c < NOOFCHIPS && 0 <= ch < NOOFCHANNELS ==> !reg.isMasked[c][ch]
  {
    MaskRegistry([], [], SetAllMasksTo(false))
  }

  // ---------------------------------------------------------------------
  // Decoding one masking string
  // ---------------------------------------------------------------------

  /** Index of the first `c` at or after `pos`, or `|s|` when there is none. */
  function Find(s: string, c: char, pos: nat): (i: nat)
    requires pos <= |s|
    ensures pos <= i <= |s|
    decreases |s| - pos
  {
    if pos == |s| then |s| else if s[pos] == c then pos else Find(s, c, pos + 1)
  }

  /** `Find` stops at the first occurrence: at a `c`, or at the end, with no
      `c` skipped on the way. */
  lemma {:induction false} FindIsFirst(s: string, c: char, pos: nat)
    requires pos <= |s|
    ensures var i := Find(s, c, pos);
      && (i < |s| ==> s[i] == c)
      && (forall k :: pos <= k < i ==> s[k] != c)
    decreases |s| - pos
  {
    if pos < |s| && s[pos] != c {
      FindIsFirst(s, c, pos + 1);
    }
  }

  /** The characters from `pos` up to, not including, the next `c` (or the end);
      empty when `pos` is at or past the end. */
  function SubStringUpToChar(s: string, c: char, pos: nat): (t: string)
  {
    if pos >= |s| then [] else s[pos..Find(s, c, pos)]
  }

  /** The substring is the stretch of `s` at `pos` that holds no `c`, ended by
      a `c` or by the end of `s`. */
  lemma SubStringUpToCharSpec(s: string, c: char, pos: nat)
    ensures var t := SubStringUpToChar(s, c, pos);
      && (forall k :: 0 <= k < |t| ==> t[k] != c)
      && (|t| > 0 ==> pos + |t| <= |s| && t == s[pos..pos + |t|])
      && (pos < |s| ==> pos + |t| == |s| || s[pos + |t|] == c)
  {
    if pos < |s| {
      FindIsFirst(s, c, pos);
    }
  }

  /** The texts one pass of the decoding loop cuts out of the string: the
      chip, the from-channel and, unless the string ends before it, the
      to-channel, with the position the pass stops at. */
  datatype Pass = Pass(chipText: string, fromText: string, toText: Option<string>, end: nat)

  /** One pass of the decoding loop. The search for `$` always starts at the
      beginning of the string; when there is none, the search result `npos`
      plus one wraps round to 0. The chip runs up to the next `:`, the
      from-channel up to the next `-` and the to-channel up to the next `$`;
      the pass breaks off before the to-channel when the from-channel reaches
      the end. */
  function ScanPass(s: string): (p: Pass)
    ensures forall k :: 0 <= k < |p.chipText| ==> p.chipText[k] != ':'
    ensures forall k :: 0 <= k < |p.fromText| ==> p.fromText[k] != '-'
    ensures p.toText.Some? ==> forall k :: 0 <= k < |p.toText.value| ==> p.toText.value[k] != '$'
    ensures p.toText.None? ==> p.end >= |s|
    ensures |p.chipText| + |p.fromText| + 2 <= p.end
  {
    var open := Find(s, '$', 0);
    var chipPos := if open < |s| then open + 1 else 0;
    var chipText := SubStringUpToChar(s, ':', chipPos);
    SubStringUpToCharSpec(s, ':', chipPos);
    var fromPos := chipPos + |chipText| + 1;
    var fromText := SubStringUpToChar(s, '-', fromPos);
    SubStringUpToCharSpec(s, '-', fromPos);
    var toPos := fromPos + |fromText| + 1;
    if toPos >= |s| then Pass(chipText, fromText, None, toPos)
    else
      var toText := SubStringUpToChar(s, '$', toPos);
      SubStringUpToCharSpec(s, '$', toPos);
      Pass(chipText, fromText, Some(toText), toPos + |toText| + 1)
  }

  /** What `decodeMaskingString` leaves in its three outputs, or that it never
      returns. */
  datatype Decoding = Decoded(chip: int, from: int, to: int) | NeverReturns

  /** `decodeMaskingString`. All three outputs start at -1 and the empty string
      skips the loop. Every pass repeats the first one, so a pass that stops
      short of the end of the string is repeated for ever; otherwise the
      outputs are the `atoi` values of the texts the pass cut out. */
  function DecodeMaskingString(s: string): (d: Decoding)
    ensures |s| == 0 ==> d == Decoded(-1, -1, -1)
    ensures d.NeverReturns? <==> |s| > 0 && ScanPass(s).end < |s|
    ensures |s| > 0 && d.Decoded? ==>
      && d.chip == Atoi(ScanPass(s).chipText)
      && d.from == Atoi(ScanPass(s).fromText) && d.from >= 0
      && d.to == (if ScanPass(s).toText.Some? then Atoi(ScanPass(s).toText.value) else -1)
  {
    if |s| == 0 then Decoded(-1, -1, -1)
    else
      var p := ScanPass(s);
      AtoiNonNegative(p.fromText);
      match p.toText
      case None => Decoded(Atoi(p.chipText), Atoi(p.fromText), -1)
      case Some(toText) =>
        if p.end >= |s| then Decoded(Atoi(p.chipText), Atoi(p.fromText), Atoi(toText)) else NeverReturns
  }

  /** The from-channel text stops at the first `-`, so it holds none. */
  lemma FromTextHasNoMinus(s: string)
    ensures forall k :: 0 <= k < |ScanPass(s).fromText| ==> ScanPass(s).fromText[k] != '-'
  {
  }

  /** Hence a non-empty string never decodes to a negative from-channel. */
  lemma DecodedFromNonNegative(s: string)
    requires |s| > 0 && DecodeMaskingString(s).Decoded?
    ensures DecodeMaskingString(s).from >= 0
  {
    FromTextHasNoMinus(s);
    AtoiNonNegative(ScanPass(s).fromText);
  }

  /** The text `$chip:from-to$` of one range. */
  function Token(chip: nat, from: nat, to: nat): string {
    "$" + NatToString(chip) + ":" + NatToString(from) + "-" + NatToString(to) + "$"
  }

  lemma SubStringOfDigits(s: string, pos: nat, digits: string, c: char)
    requires forall i :: 0 <= i < |digits| ==> IsDigit(digits[i])
    requires !IsDigit(c)
    requires pos + |digits| < |s| && s[pos..pos + |digits|] == digits && s[pos + |digits|] == c
    ensures SubStringUpToChar(s, c, pos) == digits
  {
    assert forall k :: pos <= k < pos + |digits| ==> s[k] == digits[k - pos];
    FindIsFirst(s, c, pos);
    assert Find(s, c, pos) == pos + |digits|;
  }

  lemma SubStringOfDigitsToEnd(s: string, pos: nat, digits: string, c: char)
    requires forall i :: 0 <= i < |digits| ==> IsDigit(digits[i])
    requires !IsDigit(c) && |digits| > 0
    requires pos + |digits| == |s| && s[pos..] == digits
    ensures SubStringUpToChar(s, c, pos) == digits
  {
    assert forall k :: pos <= k < |s| ==> s[k] == digits[k - pos];
    FindIsFirst(s, c, pos);
    assert Find(s, c, pos) == |s|;
  }

  /** Where the separators of `$a:b-c$` followed by `rest` sit. */
  predicate LaidOut(s: string, a: string, b: string, c: string) {
    var p1 := 2 + |a|;
    var p2 := p1 + |b| + 1;
    && p2 + |c| < |s|
    && s[0] == '$'
    && s[1..1 + |a|] == a && s[1 + |a|] == ':'
    && s[p1..p1 + |b|] == b && s[p1 + |b|] == '-'
    && s[p2..p2 + |c|] == c && s[p2 + |c|] == '$'
  }

  lemma LaidOutToken(a: string, b: string, c: string, rest: string)
    ensures LaidOut("$" + a + ":" + b + "-" + c + "$" + rest, a, b, c)
  {
    var s := "$" + a + ":" + b + "-" + c + "$" + rest;
    var s1 := "$" + a;
    var s2 := s1 + ":" + b;
    var s3 := s2 + "-" + c;
    assert s == s3 + "$" + rest;
    assert s[..|s3|] == s3;
    assert s3[..|s2|] == s2;
    assert s2[..|s1|] == s1;
    assert s[1..1 + |a|] == s1[1..];
    assert s[2 + |a|..2 + |a| + |b|] == s2[|s1| + 1..];
    assert s[3 + |a| + |b|..3 + |a| + |b| + |c|] == s3[|s2| + 1..];
  }

  /** How the pass cuts up a string laid out as `$a:b-c$` followed by more
      text, when `a`, `b` and `c` are digits. */
  lemma ScanLaidOut(s: string, a: string, b: string, c: string)
    requires forall i :: 0 <= i < |a| ==> IsDigit(a[i])
    requires forall i :: 0 <= i < |b| ==> IsDigit(b[i])
    requires forall i :: 0 <= i < |c| ==> IsDigit(c[i])
    requires LaidOut(s, a, b, c)
    ensures ScanPass(s) == Pass(a, b, Some(c), 4 + |a| + |b| + |c|)
  {
    SubStringOfDigits(s, 1, a, ':');
    SubStringOfDigits(s, 2 + |a|, b, '-');
    SubStringOfDigits(s, 3 + |a| + |b|, c, '$');
    ScanFields(s, a, b, c);
  }

  lemma ScanFields(s: string, a: string, b: string, c: string)
    requires |s| > 0 && s[0] == '$'
    requires SubStringUpToChar(s, ':', 1) == a
    requires SubStringUpToChar(s, '-', 2 + |a|) == b
    requires 3 + |a| + |b| < |s|
    requires SubStringUpToChar(s, '$', 3 + |a| + |b|) == c
    ensures ScanPass(s) == Pass(a, b, Some(c), 4 + |a| + |b| + |c|)
  {
    assert Find(s, '$', 0) == 0;
  }

  lemma ScanFieldsToEnd(s: string, a: string, b: string)
    requires |s| > 0 && s[0] == '$'
    requires SubStringUpToChar(s, ':', 1) == a
    requires SubStringUpToChar(s, '-', 2 + |a|) == b
    requires 3 + |a| + |b| >= |s|
    ensures ScanPass(s) == Pass(a, b, None, 3 + |a| + |b|)
  {
    assert Find(s, '$', 0) == 0;
  }

  /** A single well-formed token decodes to exactly its three numbers. */
  lemma DecodeToken(chip: nat, from: nat, to: nat)
    ensures DecodeMaskingString(Token(chip, from, to)) == Decoded(chip, from, to)
  {
    var a, b, c := NatToString(chip), NatToString(from), NatToString(to);
    assert Token(chip, from, to) == "$" + a + ":" + b + "-" + c + "$" + "";
    LaidOutToken(a, b, c, "");
    ScanLaidOut(Token(chip, from, to), a, b, c);
    AtoiOfNatToString(chip);
    AtoiOfNatToString(from);
    AtoiOfNatToString(to);
  }

  /** Text that stops after the from-channel leaves the to-channel at -1. */
  lemma DecodeWithoutToChannel(chip: nat, from: nat)
    ensures DecodeMaskingString("$" + NatToString(chip) + ":" + NatToString(from)) == Decoded(chip, from, -1)
  {
    var a, b := NatToString(chip), NatToString(from);
    var s1 := "$" + a;
    var s := s1 + ":" + b;
    assert s[..|s1|] == s1;
    assert s[1..1 + |a|] == s1[1..] == a;
    assert s[2 + |a|..] == b;
    SubStringOfDigits(s, 1, a, ':');
    SubStringOfDigitsToEnd(s, 2 + |a|, b, '-');
    ScanFieldsToEnd(s, a, b);
    AtoiOfNatToString(chip);
    AtoiOfNatToString(from);
  }

  /** Anything after the closing `$` of a token (a second token, a blank) makes
      the decoder loop for ever. */
  lemma DecodeTokenThenMoreNeverReturns(chip: nat, from: nat, to: nat, rest: string)
    requires |rest| > 0
    ensures DecodeMaskingString(Token(chip, from, to) + rest) == NeverReturns
  {
    var a, b, c := NatToString(chip), NatToString(from), NatToString(to);
    assert Token(chip, from, to) + rest == "$" + a + ":" + b + "-" + c + "$" + rest;
    LaidOutToken(a, b, c, rest);
    ScanLaidOut(Token(chip, from, to) + rest, a, b, c);
  }

  // ---------------------------------------------------------------------
  // Validating and applying ranges
  // ---------------------------------------------------------------------

  /** A decoded range is applied only if the chip is selected, both channels
      pass the (upper-bound only) channel check and the range is ascending. */
  function IsMaskingValid(chips: seq<int>, chip: int, from: int, to: int): (valid: bool)
    ensures valid <==> chip in chips && from <= to < NOOFCHANNELS
  {
    IsChipValid(chips, chip) && IsChannelValid(from) && IsChannelValid(to) && from <= to
  }

  /** The channels `from..to` of `chip` unmasked, nothing else changed. */
  function UnmaskRange(g: Grid, chip: int, from: int, to: int): (r: Grid)
    requires WellShaped(g) && 0 <= chip < NOOFCHIPS && 0 <= from && to < NOOFCHANNELS
    ensures WellShaped(r)
    ensures forall c, ch :: 0 <= c < NOOFCHIPS && 0 <= ch < NOOFCHANNELS ==>
      r[c][ch] == (if c == chip && from <= ch <= to then false else g[c][ch])
  {
    g[chip := seq(NOOFCHANNELS, ch requires 0 <= ch < NOOFCHANNELS => if from <= ch <= to then false else g[chip][ch])]
  }

  /** Decoding `d` is a valid range on `chip` that contains `channel`. */
  predicate RangeUnmasks(chips: seq<int>, d: Decoding, chip: int, channel: int) {
    d.Decoded? && d.chip == chip && IsMaskingValid(chips, d.chip, d.from, d.to) && d.from <= channel <= d.to
  }

  /** String `s` decodes to a valid range on `chip` that contains `channel`. */
  predicate Unmasks(chips: seq<int>, s: string, chip: int, channel: int) {
    RangeUnmasks(chips, DecodeMaskingString(s), chip, channel)
  }

  /** Some string of the list unmasks `channel` of `chip`. */
  predicate Covered(chips: seq<int>, channels: seq<string>, chip: int, channel: int) {
    exists i :: 0 <= i < |channels| && Unmasks(chips, channels[i], chip, channel)
  }

  /** What each string of the list decodes to. */
  function Decodings(channels: seq<string>): (ds: seq<Decoding>)
    ensures |ds| == |channels|
    ensures forall i :: 0 <= i < |ds| ==> ds[i] == DecodeMaskingString(channels[i])
  {
    seq(|channels|, i requires 0 <= i < |channels| => DecodeMaskingString(channels[i]))
  }

  /** One of the first `n` decodings unmasks `channel` of `chip`. */
  predicate CoveredBy(chips: seq<int>, ds: seq<Decoding>, n: nat, chip: int, channel: int)
    requires n <= |ds|
  {
    exists i :: 0 <= i < n && RangeUnmasks(chips, ds[i], chip, channel)
  }

  /** Adding decoding `k` to those considered adds exactly what it unmasks. */
  lemma CoveredByNext(chips: seq<int>, ds: seq<Decoding>, k: nat, chip: int, channel: int)
    requires k < |ds|
    ensures CoveredBy(chips, ds, k + 1, chip, channel) <==>
      CoveredBy(chips, ds, k, chip, channel) || RangeUnmasks(chips, ds[k], chip, channel)
  {
    if CoveredBy(chips, ds, k + 1, chip, channel) {
      var i :| 0 <= i < k + 1 && RangeUnmasks(chips, ds[i], chip, channel);
    }
  }

  /** Covered by all the decodings is covered by the strings. */
  lemma CoveredByAll(chips: seq<int>, channels: seq<string>, chip: int, channel: int)
    ensures CoveredBy(chips, Decodings(channels), |channels|, chip, channel) <==> Covered(chips, channels, chip, channel)
  {
    var ds := Decodings(channels);
    if Covered(chips, channels, chip, channel) {
      var i :| 0 <= i < |channels| && Unmasks(chips, channels[i], chip, channel);
      assert RangeUnmasks(chips, ds[i], chip, channel);
    }
  }

  /** A decoding's from-channel is negative only for the empty string, whose
      chip is -1. */
  predicate Plausible(d: Decoding) {
    d.Decoded? ==> d.from >= 0 || d.chip == -1
  }

  lemma DecodingsPlausible(channels: seq<string>)
    ensures forall i :: 0 <= i < |channels| ==> Plausible(Decodings(channels)[i])
  {
    forall i | 0 <= i < |channels|
      ensures Plausible(Decodings(channels)[i])
    {
      if |channels[i]| > 0 && DecodeMaskingString(channels[i]).Decoded? {
        DecodedFromNonNegative(channels[i]);
      }
    }
  }

  /** The body of the loop over the strings, for a string that decodes: its
      range is unmasked if it is valid, and nothing else changes. */
  function ApplyDecoding(chips: seq<int>, g: Grid, d: Decoding): (r: Grid)
    requires ValidSelection(chips) && WellShaped(g) && d.Decoded? && Plausible(d)
    ensures WellShaped(r)
    ensures forall c, ch :: 0 <= c < NOOFCHIPS && 0 <= ch < NOOFCHANNELS ==>
      (r[c][ch] <==> g[c][ch] && !RangeUnmasks(chips, d, c, ch))
  {
    if IsMaskingValid(chips, d.chip, d.from, d.to) then UnmaskRange(g, d.chip, d.from, d.to) else g
  }

  /** The loop of `setChannelsToBeUsed` over the decoded strings, starting
      from the all-masked grid. `None` when one of them never returns;
      otherwise exactly the channels no decoding unmasks stay masked. */
  method UnmaskAll(chips: seq<int>, ds: seq<Decoding>) returns (r: Option<Grid>)
    requires ValidSelection(chips)
    requires forall i :: 0 <= i < |ds| ==> Plausible(ds[i])
    ensures r.None? <==> exists i :: 0 <= i < |ds| && ds[i].NeverReturns?
    ensures r.Some? ==> WellShaped(r.value)
    ensures r.Some? ==> forall c, ch :: 0 <= c < NOOFCHIPS && 0 <= ch < NOOFCHANNELS ==>
      (r.value[c][ch] <==> !CoveredBy(chips, ds, |ds|, c, ch))
  {
    var g := SetAllMasksTo(true);
    var k := 0;
    while k < |ds|
      invariant 0 <= k <= |ds|
      invariant WellShaped(g)
      invariant forall i :: 0 <= i < k ==> ds[i].Decoded?
      invariant forall c, ch :: 0 <= c < NOOFCHIPS && 0 <= ch < NOOFCHANNELS ==>
        (g[c][ch] <==> !CoveredBy(chips, ds, k, c, ch))
    {
      if ds[k].NeverReturns? {
        return None;
      }
      g := ApplyDecoding(chips, g, ds[k]);
      forall c, ch | 0 <= c < NOOFCHIPS && 0 <= ch < NOOFCHANNELS
        ensures CoveredBy(chips, ds, k + 1, c, ch) <==>
          CoveredBy(chips, ds, k, c, ch) || RangeUnmasks(chips, ds[k], c, ch)
      {
        CoveredByNext(chips, ds, k, c, ch);
      }
      k := k + 1;
    }
    return Some(g);
  }

  /** `setChannelsToBeUsed`: mask everything, then unmask the valid range of
      each string in turn. `None` when one of the strings makes the decoder
      loop for ever, so that the source never returns. */
  method SetChannelsToBeUsed(reg: MaskRegistry) returns (r: Option<MaskRegistry>)
    requires Valid(reg)
    ensures r.None? <==> exists i :: 0 <= i < |reg.channelsToBeUsed| && Decodings(reg.channelsToBeUsed)[i].NeverReturns?
    ensures r.Some? ==> Valid(r.value) && r.value.chips == reg.chips && r.value.channelsToBeUsed == reg.channelsToBeUsed
    ensures r.Some? ==> forall c, ch :: 0 <= c < NOOFCHIPS && 0 <= ch < NOOFCHANNELS ==>
      (r.value.isMasked[c][ch] <==> !Covered(reg.chips, reg.channelsToBeUsed, c, ch))
  {
    var channels := reg.channelsToBeUsed;
    var ds := Decodings(channels);
    DecodingsPlausible(channels);
    var g := UnmaskAll(reg.chips, ds);
    if g.None? {
      return None;
    }
    forall c, ch | 0 <= c < NOOFCHIPS && 0 <= ch < NOOFCHANNELS
      ensures CoveredBy(reg.chips, ds, |ds|, c, ch) <==> Covered(reg.chips, channels, c, ch)
    {
      CoveredByAll(reg.chips, channels, c, ch);
    }
    return Some(reg.(isMasked := g.value));
  }

  // ---------------------------------------------------------------------
  // Querying the mask
  // ---------------------------------------------------------------------

  /** `isMasked` as the source has it. With no strings configured nothing is
      masked; for a selected chip and a channel that passes the channel check
      the grid entry is returned, and a negative channel passes that check, so
      the read lands outside the grid (`None`); everything else gives false. */
  function IsMaskedAsWritten(reg: MaskRegistry, chip: int, channel: int): (r: Option<bool>)
    requires Valid(reg)
    ensures |reg.channelsToBeUsed| == 0 ==> r == Some(false)
    ensures r.None? <==> |reg.channelsToBeUsed| > 0 && chip in reg.chips && channel < 0
    ensures r == Some(true) ==> chip in reg.chips && channel < NOOFCHANNELS
    ensures |reg.channelsToBeUsed| > 0 && chip in reg.chips && 0 <= channel < NOOFCHANNELS ==>
      r == Some(reg.isMasked[chip][channel])
    ensures |reg.channelsToBeUsed| > 0 && (chip !in reg.chips || channel >= NOOFCHANNELS) ==> r == Some(false)
  {
    if |reg.channelsToBeUsed| == 0 then Some(false)
    else if IsChipValid(reg.chips, chip) && IsChannelValid(channel) then
      if 0 <= channel then Some(reg.isMasked[chip][channel]) else None
    else Some(false)
  }

  /** `isMasked` with the lower channel bound the range check evidently
      intends: a negative channel is reported like any other invalid one. */
  function IsMasked(reg: MaskRegistry, chip: int, channel: int): (masked: bool)
    requires Valid(reg)
    ensures |reg.channelsToBeUsed| == 0 ==> !masked
    ensures masked ==> chip in reg.chips && 0 <= channel < NOOFCHANNELS
    ensures |reg.channelsToBeUsed| > 0 && chip in reg.chips && 0 <= channel < NOOFCHANNELS ==>
      masked == reg.isMasked[chip][channel]
    ensures IsMaskedAsWritten(reg, chip, channel).Some? ==> masked == IsMaskedAsWritten(reg, chip, channel).value
  {
    if |reg.channelsToBeUsed| == 0 then false
    else if IsChipValid(reg.chips, chip) && 0 <= channel && IsChannelValid(channel) then reg.isMasked[chip][channel]
    else false
  }

  /** After the strings are applied, a selected chip's channel reads as masked
      exactly when no string covers it, as long as some string was given. */
  lemma MaskedIffNotCovered(reg: MaskRegistry, after: MaskRegistry, chip: int, channel: int)
    requires Valid(reg) && Valid(after)
    requires after.chips == reg.chips && after.channelsToBeUsed == reg.channelsToBeUsed
    requires |reg.channelsToBeUsed| > 0
    requires forall c, ch :: 0 <= c < NOOFCHIPS && 0 <= ch < NOOFCHANNELS ==>
      (after.isMasked[c][ch] <==> !Covered(reg.chips, reg.channelsToBeUsed, c, ch))
    requires chip in reg.chips && 0 <= channel < NOOFCHANNELS
    ensures IsMasked(after, chip, channel) <==> !Covered(reg.chips, reg.channelsToBeUsed, chip, channel)
  {
  }
}

=== FILE: correlator.dfy ===
/** The event loop of the correlator: the first-event booking state machine,
    the cluster charge filter, the pairing of an external cluster (or hit)
    with every internal one on the next plane downstream, and what each
    accepted pair fills. Histograms are replaced by the sequence of points
    filled into them. */
module Correlator {
  import opened Wrappers
  import opened PlaneOrder
  import opened Booking

  /** A reconstructed cluster: its sensor, total charge and centre of
      gravity in pixel units. */
  datatype Cluster = Cluster(sensorID: int, charge: real, x: real, y: real)

  /** A space point: its position in the telescope frame. */
  datatype Hit = Hit(x: real, y: real, z: real)

  datatype EventType = EndOfRun | UnknownType | DataEvent

  /** An event: its type and the two input collections, each possibly
      missing. */
  datatype Event = Event(kind: EventType, clusters: Option<seq<Cluster>>, hits: Option<seq<Hit>>)

  /** The processor's configuration: the telescope geometry and the minimum
      cluster charge. */
  datatype Config = Config(planes: seq<Plane>, chargeMin: real)

  /** One point filled into the 2-D histogram keyed (`row`, `col`). */
  datatype Fill = Fill(row: int, col: int, u: real, v: real)

  /** Everything filled so far, histogram family by histogram family. */
  datatype Filled = Filled(
    clusterX: seq<Fill>, clusterY: seq<Fill>,
    shiftX: seq<Fill>, shiftY: seq<Fill>,
    hitX: seq<Fill>, hitY: seq<Fill>)

  const NothingFilled: Filled := Filled([], [], [], [], [], [])

  /** The processor state carried from event to event. */
  datatype State = State(initialized: bool, hasCluster: bool, hasHit: bool, booking: Booking, filled: Filled)

  /** The state after `init`: not yet booked, nothing filled. */
  const Initial: State := State(false, false, false, NoBooking, NothingFilled)

  /** The result of processing: the next state, or a fill into a histogram
      that was never booked (a null histogram handle in the processor), after which
      nothing is defined. */
  datatype Outcome = Continue(state: State) | NullFill

  // ---------------------------------------------------------------------
  // Pairing
  // ---------------------------------------------------------------------

  /** The pairs (e, i) with e from `exts` and i from `ints`, in loop order
      (external outer, internal inner), that `keep` accepts. */
  function PairsOf<T>(exts: seq<T>, ints: seq<T>, keep: (T, T) -> bool): seq<(T, T)>
  {
    if |exts| == 0 then []
    else InnerPairs(exts[0], ints, keep) + PairsOf(exts[1..], ints, keep)
  }

  /** The inner loop for one external element. */
  function InnerPairs<T>(e: T, ints: seq<T>, keep: (T, T) -> bool): seq<(T, T)>
  {
    if |ints| == 0 then []
    else (if keep(e, ints[0]) then [(e, ints[0])] else []) + InnerPairs(e, ints[1..], keep)
  }

  lemma {:induction false} InnerPairsMembership<T>(e: T, ints: seq<T>, keep: (T, T) -> bool, p: (T, T))
    ensures p in InnerPairs(e, ints, keep) <==> p.0 == e && p.1 in ints && keep(p.0, p.1)
  {
    if |ints| > 0 {
      InnerPairsMembership(e, ints[1..], keep, p);
      assert ints == [ints[0]] + ints[1..];
    }
  }

  /** A pair is produced exactly when both elements come from the loops and
      `keep` accepts them. */
  lemma {:induction false} PairsOfMembership<T>(exts: seq<T>, ints: seq<T>, keep: (T, T) -> bool, p: (T, T))
    ensures p in PairsOf(exts, ints, keep) <==> p.0 in exts && p.1 in ints && keep(p.0, p.1)
  {
    if |exts| > 0 {
      InnerPairsMembership(exts[0], ints, keep, p);
      PairsOfMembership(exts[1..], ints, keep, p);
      assert exts == [exts[0]] + exts[1..];
    }
  }

  /** The external cluster must carry strictly more than the minimum charge,
      the internal one at least the minimum. */
  predicate ExternalPasses(cfg: Config, e: Cluster) {
    e.charge > cfg.chargeMin
  }

  predicate InternalPasses(cfg: Config, i: Cluster) {
    i.charge >= cfg.chargeMin
  }

  /** A cluster pair is correlated when both pass the charge cut and the
      internal sensor is the next one downstream of the external sensor. */
  predicate ClusterPair(cfg: Config, e: Cluster, i: Cluster) {
    ExternalPasses(cfg, e) && InternalPasses(cfg, i) && Neighbours(ZOrderMap(cfg.planes), e.sensorID, i.sensorID)
  }

  function ClusterPairs(cfg: Config, clusters: seq<Cluster>): seq<(Cluster, Cluster)> {
    PairsOf(clusters, clusters, (e, i) => ClusterPair(cfg, e, i))
  }

  /** Hits have no charge; their sensor is guessed from z. */
  predicate HitPair(cfg: Config, e: Hit, i: Hit) {
    Neighbours(ZOrderMap(cfg.planes), GuessSensorID(cfg.planes, e.z), GuessSensorID(cfg.planes, i.z))
  }

  function HitPairs(cfg: Config, hits: seq<Hit>): seq<(Hit, Hit)> {
    PairsOf(hits, hits, (e, i) => HitPair(cfg, e, i))
  }

  /** The cluster pairs are exactly the pairs passing the charge cut and the
      neighbour test. */
  lemma ClusterPairsAreFiltered(cfg: Config, clusters: seq<Cluster>, e: Cluster, i: Cluster)
    ensures (e, i) in ClusterPairs(cfg, clusters) <==>
      e in clusters && i in clusters && e.charge > cfg.chargeMin && i.charge >= cfg.chargeMin
      && Neighbours(ZOrderMap(cfg.planes), e.sensorID, i.sensorID)
  {
    PairsOfMembership(clusters, clusters, (e, i) => ClusterPair(cfg, e, i), (e, i));
  }

  lemma HitPairsAreFiltered(cfg: Config, hits: seq<Hit>, e: Hit, i: Hit)
    ensures (e, i) in HitPairs(cfg, hits) <==>
      e in hits && i in hits && Neighbours(ZOrderMap(cfg.planes), GuessSensorID(cfg.planes, e.z), GuessSensorID(cfg.planes, i.z))
  {
    PairsOfMembership(hits, hits, (e, i) => HitPair(cfg, e, i), (e, i));
  }

  // ---------------------------------------------------------------------
  // Filling
  // ---------------------------------------------------------------------

  function FillsOf<T>(ps: seq<(T, T)>, f: (T, T) -> Fill): seq<Fill> {
    seq(|ps|, k requires 0 <= k < |ps| => f(ps[k].0, ps[k].1))
  }

  /** Some cluster pair targets a histogram that was not booked. */
  predicate ClusterFillUnbooked(b: Booking, ps: seq<(Cluster, Cluster)>) {
    exists k :: 0 <= k < |ps| && (ps[k].0.sensorID, ps[k].1.sensorID) !in b.clusters
  }

  /** Some hit pair targets a histogram that was not booked. */
  predicate HitFillUnbooked(cfg: Config, b: Booking, ps: seq<(Hit, Hit)>) {
    exists k :: 0 <= k < |ps| && (GuessSensorID(cfg.planes, ps[k].0.z), GuessSensorID(cfg.planes, ps[k].1.z)) !in b.hits
  }

  /** The cluster part of one event: each accepted pair fills (ext, int)
      into the correlation histograms and (ext, int - ext) into the shift
      histograms. */
  function FillClusters(cfg: Config, st: State, clusters: seq<Cluster>): Outcome {
    var ps := ClusterPairs(cfg, clusters);
    if ClusterFillUnbooked(st.booking, ps) then NullFill
    else
      var f := st.filled;
      Continue(st.(filled := f.(
        clusterX := f.clusterX + FillsOf(ps, (e: Cluster, i: Cluster) => Fill(e.sensorID, i.sensorID, e.x, i.x)),
        clusterY := f.clusterY + FillsOf(ps, (e: Cluster, i: Cluster) => Fill(e.sensorID, i.sensorID, e.y, i.y)),
        shiftX := f.shiftX + FillsOf(ps, (e: Cluster, i: Cluster) => Fill(e.sensorID, i.sensorID, e.x, i.x - e.x)),
        shiftY := f.shiftY + FillsOf(ps, (e: Cluster, i: Cluster) => Fill(e.sensorID, i.sensorID, e.y, i.y - e.y)))))
  }

  /** The hit part of one event: each accepted pair fills (ext, int) into
      the hit correlation histograms. */
  function FillHits(cfg: Config, st: State, hits: seq<Hit>): Outcome {
    var ps := HitPairs(cfg, hits);
    if HitFillUnbooked(cfg, st.booking, ps) then NullFill
    else
      var f := st.filled;
      Continue(st.(filled := f.(
        hitX := f.hitX + FillsOf(ps, (e: Hit, i: Hit) => Fill(GuessSensorID(cfg.planes, e.z), GuessSensorID(cfg.planes, i.z), e.x, i.x)),
        hitY := f.hitY + FillsOf(ps, (e: Hit, i: Hit) => Fill(GuessSensorID(cfg.planes, e.z), GuessSensorID(cfg.planes, i.z), e.y, i.y)))))
  }

  /** The filling part of an event on a booked processor. A collection that
      was present on the first event but is missing now raises an exception
      that is caught: whatever was filled before it stays, the rest of the
      event is skipped. */
  function FillEvent(cfg: Config, st: State, ev: Event): Outcome {
    if st.hasCluster && ev.clusters.None? then Continue(st)
    else
      var afterClusters := if st.hasCluster then FillClusters(cfg, st, ev.clusters.value) else Continue(st);
      match afterClusters
      case NullFill => NullFill
      case Continue(s) =>
        if !st.hasHit || ev.hits.None? then Continue(s)
        else FillHits(cfg, s, ev.hits.value)
  }

  // ---------------------------------------------------------------------
  // The first-event state machine
  // ---------------------------------------------------------------------

  /** An event that books the histograms when the processor is not yet
      booked: not an end-of-run marker, and carrying at least one of the two
      collections. */
  predicate Usable(ev: Event) {
    ev.kind != EndOfRun && (ev.clusters.Some? || ev.hits.Some?)
  }

  /** `processEvent`. */
  function ProcessEvent(cfg: Config, st: State, ev: Event): Outcome {
    if ev.kind == EndOfRun then Continue(st)
    else if st.initialized then FillEvent(cfg, st, ev)
    else
      var hasCluster := ev.clusters.Some?;
      var hasHit := ev.hits.Some?;
      if !hasCluster && !hasHit then
        Continue(st.(hasCluster := false, hasHit := false))
      else
        var booked := st.(initialized := true, hasCluster := hasCluster, hasHit := hasHit,
                          booking := BookHistos(cfg.planes, hasCluster, hasHit));
        FillEvent(cfg, booked, ev)
  }

  /** The processor over a run of events. */
  function Run(cfg: Config, st: State, evs: seq<Event>): Outcome
    decreases |evs|
  {
    if |evs| == 0 then Continue(st)
    else match ProcessEvent(cfg, st, evs[0])
      case NullFill => NullFill
      case Continue(s) => Run(cfg, s, evs[1..])
  }

  // ---------------------------------------------------------------------
  // Properties
  // ---------------------------------------------------------------------

  /** Every fill of `fs` went to a histogram keyed in `keys`. */
  predicate AllBooked(fs: seq<Fill>, keys: set<(int, int)>) {
    forall k :: 0 <= k < |fs| ==> (fs[k].row, fs[k].col) in keys
  }

  /** Every fill so far went to a booked histogram of its family. */
  predicate FillsBooked(st: State) {
    && AllBooked(st.filled.clusterX, st.booking.clusters.Keys)
    && AllBooked(st.filled.clusterY, st.booking.clusters.Keys)
    && AllBooked(st.filled.shiftX, st.booking.clusters.Keys)
    && AllBooked(st.filled.shiftY, st.booking.clusters.Keys)
    && AllBooked(st.filled.hitX, st.booking.hits.Keys)
    && AllBooked(st.filled.hitY, st.booking.hits.Keys)
  }

  /** The state invariant of the processor: before booking nothing is booked
      or filled; after it the booking is the one for the flags of the first
      usable event, and every fill went to a booked histogram. */
  predicate Consistent(cfg: Config, st: State) {
    && (!st.initialized ==> st.booking == NoBooking && st.filled == NothingFilled)
    && (st.initialized ==> (st.hasCluster || st.hasHit) && st.booking == BookHistos(cfg.planes, st.hasCluster, st.hasHit))
    && FillsBooked(st)
  }

  lemma InitialConsistent(cfg: Config)
    ensures Consistent(cfg, Initial)
  {
  }

  lemma AppendBooked(fs: seq<Fill>, gs: seq<Fill>, keys: set<(int, int)>)
    requires AllBooked(fs, keys) && AllBooked(gs, keys)
    ensures AllBooked(fs + gs, keys)
  {
    forall k | 0 <= k < |fs + gs|
      ensures ((fs + gs)[k].row, (fs + gs)[k].col) in keys
    {
      if k >= |fs| {
        assert (fs + gs)[k] == gs[k - |fs|];
      }
    }
  }

  /** The cluster part only appends, to booked histograms, and leaves the
      booking and flags alone. */
  lemma FillClustersKeepsBooked(cfg: Config, st: State, clusters: seq<Cluster>)
    requires FillsBooked(st)
    requires FillClusters(cfg, st, clusters).Continue?
    ensures var s := FillClusters(cfg, st, clusters).state;
      FillsBooked(s) && s.booking == st.booking && s.initialized == st.initialized
      && s.hasCluster == st.hasCluster && s.hasHit == st.hasHit
  {
    var ps := ClusterPairs(cfg, clusters);
    var keys := st.booking.clusters.Keys;
    var f := st.filled;
    var fx := FillsOf(ps, (e: Cluster, i: Cluster) => Fill(e.sensorID, i.sensorID, e.x, i.x));
    var fy := FillsOf(ps, (e: Cluster, i: Cluster) => Fill(e.sensorID, i.sensorID, e.y, i.y));
    var sx := FillsOf(ps, (e: Cluster, i: Cluster) => Fill(e.sensorID, i.sensorID, e.x, i.x - e.x));
    var sy := FillsOf(ps, (e: Cluster, i: Cluster) => Fill(e.sensorID, i.sensorID, e.y, i.y - e.y));
    assert AllBooked(fx, keys) && AllBooked(fy, keys) && AllBooked(sx, keys) && AllBooked(sy, keys) by {
      forall k | 0 <= k < |ps|
        ensures (ps[k].0.sensorID, ps[k].1.sensorID) in keys
      {
        assert !ClusterFillUnbooked(st.booking, ps);
      }
    }
    AppendBooked(f.clusterX, fx, keys);
    AppendBooked(f.clusterY, fy, keys);
    AppendBooked(f.shiftX, sx, keys);
    AppendBooked(f.shiftY, sy, keys);
  }

  /** The hit part only appends, to booked histograms, and leaves the
      booking and flags alone. */
  lemma FillHitsKeepsBooked(cfg: Config, st: State, hits: seq<Hit>)
    requires FillsBooked(st)
    requires FillHits(cfg, st, hits).Continue?
    ensures var s := FillHits(cfg, st, hits).state;
      FillsBooked(s) && s.booking == st.booking && s.initialized == st.initialized
      && s.hasCluster == st.hasCluster && s.hasHit == st.hasHit
  {
    var ps := HitPairs(cfg, hits);
    var keys := st.booking.hits.Keys;
    var f := st.filled;
    var hx := FillsOf(ps, (e: Hit, i: Hit) => Fill(GuessSensorID(cfg.planes, e.z), GuessSensorID(cfg.planes, i.z), e.x, i.x));
    var hy := FillsOf(ps, (e: Hit, i: Hit) => Fill(GuessSensorID(cfg.planes, e.z), GuessSensorID(cfg.planes, i.z), e.y, i.y));
    assert AllBooked(hx, keys) && AllBooked(hy, keys) by {
      forall k | 0 <= k < |ps|
        ensures (GuessSensorID(cfg.planes, ps[k].0.z), GuessSensorID(cfg.planes, ps[k].1.z)) in keys
      {
        assert !HitFillUnbooked(cfg, st.booking, ps);
      }
    }
    AppendBooked(f.hitX, hx, keys);
    AppendBooked(f.hitY, hy, keys);
  }

  lemma FillEventKeepsBooked(cfg: Config, st: State, ev: Event)
    requires FillsBooked(st)
    requires FillEvent(cfg, st, ev).Continue?
    ensures var s := FillEvent(cfg, st, ev).state;
      FillsBooked(s) && s.booking == st.booking && s.initialized == st.initialized
      && s.hasCluster == st.hasCluster && s.hasHit == st.hasHit
  {
    if !(st.hasCluster && ev.clusters.None?) {
      if st.hasCluster {
        FillClustersKeepsBooked(cfg, st, ev.clusters.value);
        var s := FillClusters(cfg, st, ev.clusters.value).state;
        if st.hasHit && ev.hits.Some? {
          FillHitsKeepsBooked(cfg, s, ev.hits.value);
        }
      } else if st.hasHit && ev.hits.Some? {
        FillHitsKeepsBooked(cfg, st, ev.hits.value);
      }
    }
  }

  /** End-of-run events change nothing. */
  lemma EndOfRunChangesNothing(cfg: Config, st: State, ev: Event)
    requires ev.kind == EndOfRun
    ensures ProcessEvent(cfg, st, ev) == Continue(st)
  {
  }

  /** Once booked, the processor never books again: the booking and the two
      collection flags stay as they are. */
  lemma BookedStaysBooked(cfg: Config, st: State, ev: Event)
    requires Consistent(cfg, st) && st.initialized
    requires ProcessEvent(cfg, st, ev).Continue?
    ensures var s := ProcessEvent(cfg, st, ev).state;
      s.initialized && s.booking == st.booking && s.hasCluster == st.hasCluster && s.hasHit == st.hasHit
  {
    if ev.kind != EndOfRun {
      FillEventKeepsBooked(cfg, st, ev);
    }
  }

  /** Before booking, an event without collections (or an end-of-run event)
      leaves the processor unbooked and fills nothing; the first event with a
      collection books the histograms for the collections it carries. */
  lemma FirstEventBooks(cfg: Config, st: State, ev: Event)
    requires Consistent(cfg, st) && !st.initialized
    requires ProcessEvent(cfg, st, ev).Continue?
    ensures var s := ProcessEvent(cfg, st, ev).state;
      && (s.initialized <==> Usable(ev))
      && (!s.initialized ==> s.booking == NoBooking && s.filled == NothingFilled)
      && (s.initialized ==> s.hasCluster == ev.clusters.Some? && s.hasHit == ev.hits.Some?
                            && s.booking == BookHistos(cfg.planes, ev.clusters.Some?, ev.hits.Some?))
  {
    if Usable(ev) {
      var booked := st.(initialized := true, hasCluster := ev.clusters.Some?, hasHit := ev.hits.Some?,
                        booking := BookHistos(cfg.planes, ev.clusters.Some?, ev.hits.Some?));
      FillEventKeepsBooked(cfg, booked, ev);
    }
  }

  /** Processing an event keeps the state invariant. */
  lemma ProcessEventConsistent(cfg: Config, st: State, ev: Event)
    requires Consistent(cfg, st)
    requires ProcessEvent(cfg, st, ev).Continue?
    ensures Consistent(cfg, ProcessEvent(cfg, st, ev).state)
  {
    if ev.kind != EndOfRun {
      if st.initialized {
        FillEventKeepsBooked(cfg, st, ev);
      } else if Usable(ev) {
        var booked := st.(initialized := true, hasCluster := ev.clusters.Some?, hasHit := ev.hits.Some?,
                          booking := BookHistos(cfg.planes, ev.clusters.Some?, ev.hits.Some?));
        FillEventKeepsBooked(cfg, booked, ev);
      }
    }
  }

  /** No fill ever pairs a sensor with itself. */
  lemma NoSelfFill(cfg: Config, st: State)
    requires Consistent(cfg, st)
    ensures forall k :: 0 <= k < |st.filled.clusterX| ==> st.filled.clusterX[k].row != st.filled.clusterX[k].col
    ensures forall k :: 0 <= k < |st.filled.shiftX| ==> st.filled.shiftX[k].row != st.filled.shiftX[k].col
    ensures forall k :: 0 <= k < |st.filled.hitX| ==> st.filled.hitX[k].row != st.filled.hitX[k].col
  {
    forall id: int {
      NoSelfPair(cfg.planes, st.hasCluster, st.hasHit, id);
    }
  }

  /** A guessed sensor is a sensor of the geometry, or -1 without planes. */
  lemma GuessIsKnown(planes: seq<Plane>, z: real)
    ensures |planes| > 0 ==> GuessSensorID(planes, z) in SensorIDs(planes)
    ensures |planes| == 0 ==> GuessSensorID(planes, z) == -1 && ZOrderMap(planes) == map[]
  {
  }

  /** Clusters from sensors of the geometry only ever fill booked
      histograms. */
  lemma KnownClustersFillBooked(cfg: Config, st: State, clusters: seq<Cluster>)
    requires st.booking == BookHistos(cfg.planes, true, st.hasHit)
    requires forall k :: 0 <= k < |clusters| ==> clusters[k].sensorID in SensorIDs(cfg.planes)
    ensures FillClusters(cfg, st, clusters).Continue?
  {
    var ps := ClusterPairs(cfg, clusters);
    forall k | 0 <= k < |ps|
      ensures (ps[k].0.sensorID, ps[k].1.sensorID) in st.booking.clusters
    {
      PairsOfMembership(clusters, clusters, (e, i) => ClusterPair(cfg, e, i), ps[k]);
    }
  }

  /** Hits always fill booked histograms: their guessed sensors are sensors
      of the geometry, and without planes no two hits are neighbours. */
  lemma HitsFillBooked(cfg: Config, st: State, hits: seq<Hit>)
    requires st.booking == BookHistos(cfg.planes, st.hasCluster, true)
    ensures FillHits(cfg, st, hits).Continue?
  {
    var ps := HitPairs(cfg, hits);
    forall k | 0 <= k < |ps|
      ensures (GuessSensorID(cfg.planes, ps[k].0.z), GuessSensorID(cfg.planes, ps[k].1.z)) in st.booking.hits
    {
      PairsOfMembership(hits, hits, (e, i) => HitPair(cfg, e, i), ps[k]);
      GuessIsKnown(cfg.planes, ps[k].0.z);
      GuessIsKnown(cfg.planes, ps[k].1.z);
    }
  }

  /** Every cluster of the event comes from a sensor of the geometry. */
  predicate ClustersKnown(cfg: Config, ev: Event) {
    ev.clusters.Some? ==> forall k :: 0 <= k < |ev.clusters.value| ==> ev.clusters.value[k].sensorID in SensorIDs(cfg.planes)
  }

  lemma FillEventNeverNull(cfg: Config, st: State, ev: Event)
    requires Consistent(cfg, st) && st.initialized && ClustersKnown(cfg, ev)
    ensures FillEvent(cfg, st, ev).Continue?
  {
    if !(st.hasCluster && ev.clusters.None?) {
      var s := st;
      if st.hasCluster {
        KnownClustersFillBooked(cfg, st, ev.clusters.value);
        FillClustersKeepsBooked(cfg, st, ev.clusters.value);
        s := FillClusters(cfg, st, ev.clusters.value).state;
      }
      if st.hasHit && ev.hits.Some? {
        HitsFillBooked(cfg, s, ev.hits.value);
      }
    }
  }

  /** When the data only names sensors of the geometry, no fill ever goes to
      a histogram that was not booked. */
  lemma KnownSensorsNeverFillNull(cfg: Config, st: State, ev: Event)
    requires Consistent(cfg, st) && ClustersKnown(cfg, ev)
    ensures ProcessEvent(cfg, st, ev).Continue?
  {
    if ev.kind != EndOfRun {
      if st.initialized {
        FillEventNeverNull(cfg, st, ev);
      } else if Usable(ev) {
        var booked := st.(initialized := true, hasCluster := ev.clusters.Some?, hasHit := ev.hits.Some?,
                          booking := BookHistos(cfg.planes, ev.clusters.Some?, ev.hits.Some?));
        FillEventNeverNull(cfg, booked, ev);
      }
    }
  }

  /** Two planes at z 0 and 10 carrying sensors 1 and 2. */
  const TwoPlanes: seq<Plane> := [Plane(1, 0.0, 10, 10), Plane(2, 10.0, 10, 10)]

  lemma TwoPlanesOrder()
    ensures SensorIDs(TwoPlanes) == {1, 2}
    ensures ZOrderOf(ZOrderMap(TwoPlanes), 2) == 1
  {
    var planes := TwoPlanes;
    assert planes[..1] == [planes[0]] && planes[..1][..0] == [];
    assert ZOrder(planes, 1) == 1;
    assert FirstWithId(planes, 1);
    ZOrderMapReads(planes, 1);
    assert planes[0].id == 1 && planes[1].id == 2;
  }

  /** A cluster from a sensor missing from the geometry reads position 0,
      so it pairs with the clusters of the second plane, whose histogram was
      never booked: an external cluster on unknown sensor 7 and an internal
      one on sensor 2. */
  lemma UnknownSensorPairUnbooked(cfg: Config, e: Cluster, i: Cluster)
    requires cfg == Config(TwoPlanes, 0.0) && e == Cluster(7, 1.0, 0.0, 0.0) && i == Cluster(2, 1.0, 0.0, 0.0)
    ensures ClusterFillUnbooked(BookHistos(TwoPlanes, true, false), ClusterPairs(cfg, [e, i]))
  {
    var clusters := [e, i];
    TwoPlanesOrder();
    assert ClusterPair(cfg, e, i);
    PairsOfMembership(clusters, clusters, (e, i) => ClusterPair(cfg, e, i), (e, i));
    var ps := ClusterPairs(cfg, clusters);
    var k :| 0 <= k < |ps| && ps[k] == (e, i);
    assert (7, 2) !in BookHistos(TwoPlanes, true, false).clusters;
  }

  /** The first event of a run whose clusters lie on unknown sensor 7 and on
      sensor 2 books the histograms and then fills the unbooked pair (7, 2),
      so processing it ends in `NullFill`. */
  lemma UnknownSensorFillsNull()
    ensures var ev := Event(DataEvent, Some([Cluster(7, 1.0, 0.0, 0.0), Cluster(2, 1.0, 0.0, 0.0)]), None);
      ProcessEvent(Config(TwoPlanes, 0.0), Initial, ev) == NullFill
  {
    var cfg := Config(TwoPlanes, 0.0);
    var e, i := Cluster(7, 1.0, 0.0, 0.0), Cluster(2, 1.0, 0.0, 0.0);
    var ev := Event(DataEvent, Some([e, i]), None);
    UnknownSensorPairUnbooked(cfg, e, i);
    var booked := Initial.(initialized := true, hasCluster := true, hasHit := false,
                           booking := BookHistos(TwoPlanes, true, false));
    assert FillClusters(cfg, booked, [e, i]) == NullFill;
    assert FillEvent(cfg, booked, ev) == NullFill;
  }

  /** Each accepted cluster pair fills its shift histograms with the point
      it fills into its correlation histograms, the internal coordinate
      replaced by internal minus external; earlier fills are kept. */
  lemma ShiftFillsAreDifferences(cfg: Config, st: State, clusters: seq<Cluster>)
    requires FillClusters(cfg, st, clusters).Continue?
    ensures var s := FillClusters(cfg, st, clusters).state;
      var n := |ClusterPairs(cfg, clusters)|;
      var c0, s0 := |st.filled.clusterX|, |st.filled.shiftX|;
      && |s.filled.clusterX| == c0 + n && |s.filled.shiftX| == s0 + n
      && s.filled.clusterX[..c0] == st.filled.clusterX && s.filled.shiftX[..s0] == st.filled.shiftX
      && var added, shifted := s.filled.clusterX[c0..], s.filled.shiftX[s0..];
         forall k :: 0 <= k < n ==>
           shifted[k].row == added[k].row && shifted[k].col == added[k].col
           && shifted[k].u == added[k].u && shifted[k].v == added[k].v - added[k].u
  {
  }

  /** `f` is the X correlation point of a pair of `clusters` that passes the
      charge cut and the neighbour test. */
  predicate FromAcceptedPair(cfg: Config, clusters: seq<Cluster>, f: Fill) {
    exists e, i :: e in clusters && i in clusters && ClusterPair(cfg, e, i) && f == Fill(e.sensorID, i.sensorID, e.x, i.x)
  }

  /** The new cluster-correlation fills of an event are exactly the points
      (ext.x, int.x) of the pairs that pass the charge cut and the neighbour
      test. */
  lemma ClusterFillsAreFiltered(cfg: Config, st: State, clusters: seq<Cluster>, e: Cluster, i: Cluster)
    requires FillClusters(cfg, st, clusters).Continue?
    ensures var added := FillClusters(cfg, st, clusters).state.filled.clusterX[|st.filled.clusterX|..];
      e in clusters && i in clusters && ClusterPair(cfg, e, i) ==> Fill(e.sensorID, i.sensorID, e.x, i.x) in added
    ensures var added := FillClusters(cfg, st, clusters).state.filled.clusterX[|st.filled.clusterX|..];
      forall k :: 0 <= k < |added| ==> FromAcceptedPair(cfg, clusters, added[k])
  {
    var ps := ClusterPairs(cfg, clusters);
    var added := FillClusters(cfg, st, clusters).state.filled.clusterX[|st.filled.clusterX|..];
    assert |added| == |ps|;
    if e in clusters && i in clusters && ClusterPair(cfg, e, i) {
      PairsOfMembership(clusters, clusters, (e, i) => ClusterPair(cfg, e, i), (e, i));
      var k :| 0 <= k < |ps| && ps[k] == (e, i);
      assert added[k] == Fill(e.sensorID, i.sensorID, e.x, i.x);
    }
    forall k | 0 <= k < |added|
      ensures FromAcceptedPair(cfg, clusters, added[k])
    {
      PairsOfMembership(clusters, clusters, (e, i) => ClusterPair(cfg, e, i), ps[k]);
      assert added[k] == Fill(ps[k].0.sensorID, ps[k].1.sensorID, ps[k].0.x, ps[k].1.x);
    }
  }

  // ---------------------------------------------------------------------
  // Whole runs
  // ---------------------------------------------------------------------

  /** Once booked, a run never books again. */
  lemma {:induction false} RunKeepsBooking(cfg: Config, st: State, evs: seq<Event>)
    requires Consistent(cfg, st) && st.initialized
    requires Run(cfg, st, evs).Continue?
    ensures var s := Run(cfg, st, evs).state;
      s.initialized && s.booking == st.booking && s.hasCluster == st.hasCluster && s.hasHit == st.hasHit
    decreases |evs|
  {
    if |evs| > 0 {
      BookedStaysBooked(cfg, st, evs[0]);
      ProcessEventConsistent(cfg, st, evs[0]);
      RunKeepsBooking(cfg, ProcessEvent(cfg, st, evs[0]).state, evs[1..]);
    }
  }

  /** Without a usable event a run stays unbooked and fills nothing. */
  lemma {:induction false} RunWithoutUsableEvent(cfg: Config, st: State, evs: seq<Event>)
    requires Consistent(cfg, st) && !st.initialized
    requires forall j :: 0 <= j < |evs| ==> !Usable(evs[j])
    ensures Run(cfg, st, evs).Continue?
    ensures var s := Run(cfg, st, evs).state;
      !s.initialized && s.booking == NoBooking && s.filled == NothingFilled
    decreases |evs|
  {
    if |evs| > 0 {
      assert ProcessEvent(cfg, st, evs[0]).Continue?;
      FirstEventBooks(cfg, st, evs[0]);
      ProcessEventConsistent(cfg, st, evs[0]);
      RunWithoutUsableEvent(cfg, ProcessEvent(cfg, st, evs[0]).state, evs[1..]);
    }
  }

  /** A run books exactly once, on its first usable event, for the
      collections that event carries. */
  lemma {:induction false} RunBooksOnFirstUsable(cfg: Config, st: State, evs: seq<Event>, k: nat)
    requires Consistent(cfg, st) && !st.initialized
    requires k < |evs| && Usable(evs[k]) && forall j :: 0 <= j < k ==> !Usable(evs[j])
    requires Run(cfg, st, evs).Continue?
    ensures var s := Run(cfg, st, evs).state;
      && s.initialized && s.hasCluster == evs[k].clusters.Some? && s.hasHit == evs[k].hits.Some?
      && s.booking == BookHistos(cfg.planes, evs[k].clusters.Some?, evs[k].hits.Some?)
    decreases |evs|
  {
    assert ProcessEvent(cfg, st, evs[0]).Continue?;
    var s := ProcessEvent(cfg, st, evs[0]).state;
    FirstEventBooks(cfg, st, evs[0]);
    ProcessEventConsistent(cfg, st, evs[0]);
    if k == 0 {
      RunKeepsBooking(cfg, s, evs[1..]);
    } else {
      RunBooksOnFirstUsable(cfg, s, evs[1..], k - 1);
    }
  }

  /** When the data only names sensors of the geometry, a whole run never
      fills a histogram that was not booked. */
  lemma {:induction false} KnownSensorsRunNeverFillsNull(cfg: Config, st: State, evs: seq<Event>)
    requires Consistent(cfg, st)
    requires forall j :: 0 <= j < |evs| ==> ClustersKnown(cfg, evs[j])
    ensures Run(cfg, st, evs).Continue?
    decreases |evs|
  {
    if |evs| > 0 {
      KnownSensorsNeverFillNull(cfg, st, evs[0]);
      ProcessEventConsistent(cfg, st, evs[0]);
      KnownSensorsRunNeverFillsNull(cfg, ProcessEvent(cfg, st, evs[0]).state, evs[1..]);
    }
  }
}

=== FILE: decimal.dfy ===
/** Decimal text: the C library's `atoi` as the channel-masking decoder uses it,
    and the decimal rendering of a natural number that masking strings are
    written with. */
module Decimal {

  predicate IsDigit(c: char) {
    '0' <= c <= '9'
  }

  /** The white-space characters `atoi` skips: blank, and tab through carriage return. */
  predicate IsSpace(c: char) {
    c == ' ' || 9 <= c as int <= 13
  }

  function DigitValue(c: char): (d: nat)
    requires IsDigit(c)
    ensures d < 10
  {
    c as int - '0' as int
  }

  function DigitChar(d: nat): (c: char)
    requires d < 10
    ensures IsDigit(c) && DigitValue(c) == d
  {
    ('0' as int + d) as char
  }

  /** Length of the longest prefix of `s` made of characters satisfying `p`. */
  function PrefixRun(s: string, p: char -> bool): (n: nat)
    ensures n <= |s|
  {
    if |s| == 0 || !p(s[0]) then 0 else 1 + PrefixRun(s[1..], p)
  }

  /** The run is maximal: every character in it satisfies `p`, and the one
      after it, if any, does not. */
  lemma {:induction false} PrefixRunIsMaximal(s: string, p: char -> bool)
    ensures var n := PrefixRun(s, p);
      && (forall i :: 0 <= i < n ==> p(s[i]))
      && (n < |s| ==> !p(s[n]))
  {
    if |s| > 0 && p(s[0]) {
      PrefixRunIsMaximal(s[1..], p);
      var n := PrefixRun(s, p);
      assert forall i :: 1 <= i < n ==> s[i] == s[1..][i - 1];
    }
  }

  /** Value of a string of digits, most significant first. */
  function DigitsValue(d: string): nat
    requires forall i :: 0 <= i < |d| ==> IsDigit(d[i])
  {
    if |d| == 0 then 0 else DigitsValue(d[..|d| - 1]) * 10 + DigitValue(d[|d| - 1])
  }

  /** Value of the digits that open `s` (0 when `s` does not open with a digit). */
  function LeadingDigitsValue(s: string): nat {
    PrefixRunIsMaximal(s, IsDigit);
    DigitsValue(s[..PrefixRun(s, IsDigit)])
  }

  /** `atoi`: skip white space, read an optional sign, then the longest run of
      digits; no digits at all gives 0. */
  function Atoi(s: string): int
  {
    var t := s[PrefixRun(s, IsSpace)..];
    if |t| > 0 && t[0] == '-' then
      -(LeadingDigitsValue(t[1..]) as int)
    else if |t| > 0 && t[0] == '+' then LeadingDigitsValue(t[1..])
    else LeadingDigitsValue(t)
  }

  /** Decimal rendering of `n` without sign or leading zeros. */
  function NatToString(n: nat): (s: string)
    ensures |s| > 0
    ensures forall i :: 0 <= i < |s| ==> IsDigit(s[i])
  {
    if n < 10 then [DigitChar(n)] else NatToString(n / 10) + [DigitChar(n % 10)]
  }

  /** Reading back the rendering of `n` gives `n`. */
  lemma {:induction false} DigitsValueOfNatToString(n: nat)
    ensures DigitsValue(NatToString(n)) == n
  {
    if n >= 10 {
      var s := NatToString(n);
      assert s[..|s| - 1] == NatToString(n / 10);
      DigitsValueOfNatToString(n / 10);
    }
  }

  /** `atoi` inverts `NatToString`. */
  lemma AtoiOfNatToString(n: nat)
    ensures Atoi(NatToString(n)) == n
  {
    var s := NatToString(n);
    assert PrefixRun(s, IsSpace) == 0 by {
      assert !IsSpace(s[0]);
    }
    assert s[0..] == s;
    assert PrefixRun(s, IsDigit) == |s| by {
      PrefixRunAll(s, IsDigit);
    }
    assert s[..|s|] == s;
    DigitsValueOfNatToString(n);
  }

  lemma {:induction false} PrefixRunAll(s: string, p: char -> bool)
    requires forall i :: 0 <= i < |s| ==> p(s[i])
    ensures PrefixRun(s, p) == |s|
  {
    if |s| > 0 {
      PrefixRunAll(s[1..], p);
    }
  }

  /** `atoi` never yields a negative value from text that holds no minus sign. */
  lemma AtoiNonNegative(s: string)
    requires forall i :: 0 <= i < |s| ==> s[i] != '-'
    ensures Atoi(s) >= 0
  {
    var k := PrefixRun(s, IsSpace);
    PrefixRunIsMaximal(s, IsSpace);
    if k < |s| {
      assert s[k..][0] == s[k];
    }
  }
}

=== FILE: offset.dfy ===
/** The offset estimate printed at the end of a run: the shifts filled for a
    sensor pair are projected onto the shift axis, and the offset is the
    height-weighted mean bin centre over the bins reaching at least half the
    highest bin. */
module OffsetEstimate {
  import opened Wrappers
  import opened Booking

  /** An axis whose bins have positive width. */
  predicate ValidAxis(a: Axis) {
    a.bins > 0 && a.lo < a.hi
  }

  /** The value falls inside the axis (not into under- or overflow). */
  predicate InRange(a: Axis, v: real) {
    a.lo <= v < a.hi
  }

  /** The bin a value falls into, counting from 0. */
  function BinOf(a: Axis, v: real): int
    requires ValidAxis(a)
  {
    ((v - a.lo) / BinWidth(a)).Floor
  }

  lemma BinOfInRange(a: Axis, v: real)
    requires ValidAxis(a) && InRange(a, v)
    ensures 0 <= BinOf(a, v) < a.bins
  {
    var w := BinWidth(a);
    var n := a.bins as real;
    assert w * n == a.hi - a.lo;
    assert w > 0.0;
    var x := (v - a.lo) / w;
    assert x * w == v - a.lo;
    assert 0.0 <= x;
    assert x * w < n * w;
  }

  /** The entries per bin after filling `vs` one value at a time; values
      outside the axis go to under- or overflow and are not counted. */
  function Histogram(a: Axis, vs: seq<real>): (h: seq<nat>)
    requires ValidAxis(a)
    ensures |h| == a.bins
  {
    if |vs| == 0 then seq(a.bins, k => 0)
    else
      var h := Histogram(a, vs[..|vs| - 1]);
      var v := vs[|vs| - 1];
      if InRange(a, v) then
        BinOfInRange(a, v);
        h[BinOf(a, v) := h[BinOf(a, v)] + 1]
      else h
  }

  function Sum(s: seq<nat>): nat {
    if |s| == 0 then 0 else Sum(s[..|s| - 1]) + s[|s| - 1]
  }

  /** How many of `vs` fall inside the axis. */
  function InRangeCount(a: Axis, vs: seq<real>): (n: nat)
    ensures n <= |vs|
  {
    if |vs| == 0 then 0
    else InRangeCount(a, vs[..|vs| - 1]) + (if InRange(a, vs[|vs| - 1]) then 1 else 0)
  }

  lemma {:induction false} SumOfZeros(n: nat)
    ensures Sum(seq(n, k => 0)) == 0
  {
    if n > 0 {
      assert seq(n, k => 0)[..n - 1] == seq(n - 1, k => 0);
      SumOfZeros(n - 1);
    }
  }

  lemma {:induction false} SumIncrement(s: seq<nat>, k: nat)
    requires k < |s|
    ensures Sum(s[k := s[k] + 1]) == Sum(s) + 1
  {
    var t := s[k := s[k] + 1];
    var n := |s| - 1;
    if k < n {
      assert t[..n] == s[..n][k := s[k] + 1];
      SumIncrement(s[..n], k);
    } else {
      assert t[..n] == s[..n];
    }
  }

  /** Every value inside the axis lands in exactly one bin: the bins hold
      exactly the in-range values. */
  lemma {:induction false} HistogramConserves(a: Axis, vs: seq<real>)
    requires ValidAxis(a)
    ensures Sum(Histogram(a, vs)) == InRangeCount(a, vs)
  {
    if |vs| == 0 {
      SumOfZeros(a.bins);
    } else {
      var front := vs[..|vs| - 1];
      var v := vs[|vs| - 1];
      HistogramConserves(a, front);
      if InRange(a, v) {
        BinOfInRange(a, v);
        SumIncrement(Histogram(a, front), BinOf(a, v));
      }
    }
  }

  /** Bin `k` holds exactly the values that fall into it. */
  lemma {:induction false} HistogramCountsBin(a: Axis, vs: seq<real>, k: nat)
    requires ValidAxis(a) && k < a.bins
    ensures Histogram(a, vs)[k] == |set j | 0 <= j < |vs| && InRange(a, vs[j]) && BinOf(a, vs[j]) == k|
  {
    var inBin := set j | 0 <= j < |vs| && InRange(a, vs[j]) && BinOf(a, vs[j]) == k;
    if |vs| > 0 {
      var n := |vs| - 1;
      var front := vs[..n];
      HistogramCountsBin(a, front, k);
      var frontInBin := set j | 0 <= j < |front| && InRange(a, front[j]) && BinOf(a, front[j]) == k;
      assert frontInBin == inBin - {n};
      if InRange(a, vs[n]) && BinOf(a, vs[n]) == k {
        assert inBin == frontInBin + {n};
      } else {
        assert inBin == frontInBin;
      }
    }
  }

  // ---------------------------------------------------------------------
  // The half-maximum band and its weighted mean
  // ---------------------------------------------------------------------

  /** The highest bin, starting from 0. */
  function Highest(hs: seq<nat>): (m: nat)
    ensures forall k :: 0 <= k < |hs| ==> hs[k] <= m
    ensures m == 0 || exists k :: 0 <= k < |hs| && hs[k] == m
  {
    if |hs| == 0 then 0
    else
      var m := Highest(hs[..|hs| - 1]);
      if hs[|hs| - 1] > m then hs[|hs| - 1] else m
  }

  /** The height a bin contributes to the band: all of it when it reaches
      threshold `t`, nothing otherwise. */
  function InBand(h: nat, t: real): real {
    if h as real >= t then h as real else 0.0
  }

  /** Total height of the bins at or above threshold `t`. */
  function BandWeight(hs: seq<nat>, t: real): real {
    if |hs| == 0 then 0.0
    else BandWeight(hs[..|hs| - 1], t) + InBand(hs[|hs| - 1], t)
  }

  /** Sum of centre times height over the bins at or above threshold `t`. */
  function BandMoment(cs: seq<real>, hs: seq<nat>, t: real): real
    requires |cs| == |hs|
  {
    if |hs| == 0 then 0.0
    else
      var n := |hs| - 1;
      BandMoment(cs[..n], hs[..n], t) + cs[n] * InBand(hs[n], t)
  }

  /** The offset for bin centres `cs` and heights `hs`: the weighted mean
      centre over the bins reaching half the highest; undefined (a division
      by zero) when that band is empty. */
  function Offset(cs: seq<real>, hs: seq<nat>): Option<real>
    requires |cs| == |hs|
  {
    var t := Highest(hs) as real / 2.0;
    var w := BandWeight(hs, t);
    if w == 0.0 then None else Some(BandMoment(cs, hs, t) / w)
  }

  lemma {:induction false} BandWeightAtLeast(hs: seq<nat>, t: real, k: nat)
    requires k < |hs| && hs[k] as real >= t
    ensures BandWeight(hs, t) >= hs[k] as real
  {
    var n := |hs| - 1;
    BandWeightNonNegative(hs[..n], t);
    if k < n {
      BandWeightAtLeast(hs[..n], t, k);
    }
  }

  lemma {:induction false} BandWeightNonNegative(hs: seq<nat>, t: real)
    ensures BandWeight(hs, t) >= 0.0
  {
    if |hs| > 0 {
      BandWeightNonNegative(hs[..|hs| - 1], t);
    }
  }

  lemma {:induction false} BandWeightOfZeros(hs: seq<nat>, t: real)
    requires forall k :: 0 <= k < |hs| ==> hs[k] == 0
    ensures BandWeight(hs, t) == 0.0
  {
    if |hs| > 0 {
      BandWeightOfZeros(hs[..|hs| - 1], t);
    }
  }

  /** The offset is undefined exactly when nothing was counted. */
  lemma OffsetUndefinedIffEmpty(cs: seq<real>, hs: seq<nat>)
    requires |cs| == |hs|
    ensures Offset(cs, hs) == None <==> forall k :: 0 <= k < |hs| ==> hs[k] == 0
  {
    var m := Highest(hs);
    if m > 0 {
      var k :| 0 <= k < |hs| && hs[k] == m;
      BandWeightAtLeast(hs, m as real / 2.0, k);
    } else {
      BandWeightOfZeros(hs, m as real / 2.0);
    }
  }

  lemma {:induction false} BandMomentNonNegative(cs: seq<real>, hs: seq<nat>, t: real)
    requires |cs| == |hs|
    requires forall k :: 0 <= k < |cs| ==> cs[k] >= 0.0
    ensures BandMoment(cs, hs, t) >= 0.0
  {
    if |hs| > 0 {
      var n := |hs| - 1;
      BandMomentNonNegative(cs[..n], hs[..n], t);
      TermNonNegative(cs[n], InBand(hs[n], t));
    }
  }

  lemma TermNonNegative(c: real, h: real)
    requires c >= 0.0 && h >= 0.0
    ensures c * h >= 0.0
  {
  }

  lemma BandMomentBounds(cs: seq<real>, hs: seq<nat>, t: real, lo: real, hi: real)
    requires |cs| == |hs|
    requires forall k :: 0 <= k < |cs| ==> lo <= cs[k] <= hi
    ensures lo * BandWeight(hs, t) <= BandMoment(cs, hs, t) <= hi * BandWeight(hs, t)
  {
    BandMomentAtLeast(cs, hs, t, lo);
    BandMomentAtMost(cs, hs, t, hi);
  }

  lemma BandMomentAtLeast(cs: seq<real>, hs: seq<nat>, t: real, lo: real)
    requires |cs| == |hs|
    requires forall k :: 0 <= k < |cs| ==> lo <= cs[k]
    ensures lo * BandWeight(hs, t) <= BandMoment(cs, hs, t)
  {
    var above := Moved(cs, -lo);
    BandMomentMoved(cs, above, hs, t, -lo);
    BandMomentNonNegative(above, hs, t);
  }

  lemma BandMomentAtMost(cs: seq<real>, hs: seq<nat>, t: real, hi: real)
    requires |cs| == |hs|
    requires forall k :: 0 <= k < |cs| ==> cs[k] <= hi
    ensures BandMoment(cs, hs, t) <= hi * BandWeight(hs, t)
  {
    var negated := seq(|cs|, k requires 0 <= k < |cs| => -cs[k]);
    var below := Moved(negated, hi);
    BandMomentNegated(cs, negated, hs, t);
    BandMomentMoved(negated, below, hs, t, hi);
    BandMomentNonNegative(below, hs, t);
  }

  lemma OffsetBetween(cs: seq<real>, hs: seq<nat>, lo: real, hi: real)
    requires |cs| == |hs|
    requires forall k :: 0 <= k < |cs| ==> lo <= cs[k] <= hi
    ensures Offset(cs, hs).Some? ==> lo <= Offset(cs, hs).value <= hi
  {
    var t := Highest(hs) as real / 2.0;
    var w := BandWeight(hs, t);
    var m := BandMoment(cs, hs, t);
    BandMomentBounds(cs, hs, t, lo, hi);
    BandWeightNonNegative(hs, t);
    if w != 0.0 {
      MeanBetween(lo, hi, w, m);
    }
  }

  lemma MeanBetween(lo: real, hi: real, w: real, m: real)
    requires w > 0.0 && lo * w <= m <= hi * w
    ensures lo <= m / w <= hi
  {
    assert (m / w) * w == m;
  }

  /** The centres moved by `d`. */
  function Moved(cs: seq<real>, d: real): (r: seq<real>)
    ensures |r| == |cs| && forall k :: 0 <= k < |cs| ==> r[k] == cs[k] + d
  {
    seq(|cs|, k requires 0 <= k < |cs| => cs[k] + d)
  }

  /** Moving every centre by `d` adds `d` times the band weight to the
      moment. */
  lemma BandMomentMoved(cs: seq<real>, ms: seq<real>, hs: seq<nat>, t: real, d: real)
    requires |cs| == |hs| == |ms|
    requires forall k :: 0 <= k < |cs| ==> ms[k] == cs[k] + d
    ensures BandMoment(ms, hs, t) == BandMoment(cs, hs, t) + d * BandWeight(hs, t)
  {
    var ds := seq(|cs|, k => d);
    BandMomentAdds(cs, ds, ms, hs, t);
    BandMomentConstant(ds, hs, t, d);
  }

  /** The moment is additive in the centres. */
  lemma {:induction false} BandMomentAdds(cs: seq<real>, es: seq<real>, ms: seq<real>, hs: seq<nat>, t: real)
    requires |cs| == |hs| == |ms| == |es|
    requires forall k :: 0 <= k < |cs| ==> ms[k] == cs[k] + es[k]
    ensures BandMoment(ms, hs, t) == BandMoment(cs, hs, t) + BandMoment(es, hs, t)
  {
    if |hs| > 0 {
      var n := |hs| - 1;
      BandMomentAdds(cs[..n], es[..n], ms[..n], hs[..n], t);
      AddsStep(ms[n], cs[n], es[n], InBand(hs[n], t));
    }
  }

  /** With every centre at `d` the moment is `d` times the band weight. */
  lemma {:induction false} BandMomentConstant(ds: seq<real>, hs: seq<nat>, t: real, d: real)
    requires |ds| == |hs|
    requires forall k :: 0 <= k < |ds| ==> ds[k] == d
    ensures BandMoment(ds, hs, t) == d * BandWeight(hs, t)
  {
    if |hs| > 0 {
      var n := |hs| - 1;
      BandMomentConstant(ds[..n], hs[..n], t, d);
      ConstantStep(BandWeight(hs[..n], t), InBand(hs[n], t), d);
    }
  }

  lemma AddsStep(m: real, c: real, e: real, h: real)
    requires m == c + e
    ensures m * h == c * h + e * h
  {
  }

  lemma ConstantStep(w: real, h: real, d: real)
    ensures d * w + d * h == d * (w + h)
  {
  }

  /** Negating every centre negates the moment. */
  lemma {:induction false} BandMomentNegated(cs: seq<real>, ms: seq<real>, hs: seq<nat>, t: real)
    requires |cs| == |hs| == |ms|
    requires forall k :: 0 <= k < |cs| ==> ms[k] == -cs[k]
    ensures BandMoment(ms, hs, t) == -BandMoment(cs, hs, t)
  {
    if |hs| > 0 {
      var n := |hs| - 1;
      BandMomentNegated(cs[..n], ms[..n], hs[..n], t);
      BandStep(cs, hs, t);
      BandStep(ms, hs, t);
      NegatedStep(BandMoment(ms[..n], hs[..n], t), BandMoment(cs[..n], hs[..n], t), ms[n], cs[n], InBand(hs[n], t));
    }
  }

  /** The sums over a non-empty histogram are those over all but its last
      bin plus the last bin's term. */
  lemma BandStep(cs: seq<real>, hs: seq<nat>, t: real)
    requires |cs| == |hs| > 0
    ensures BandWeight(hs, t) == BandWeight(hs[..|hs| - 1], t) + InBand(hs[|hs| - 1], t)
    ensures BandMoment(cs, hs, t) == BandMoment(cs[..|hs| - 1], hs[..|hs| - 1], t) + cs[|hs| - 1] * InBand(hs[|hs| - 1], t)
  {
  }

  lemma NegatedStep(mm: real, m: real, mc: real, c: real, h: real)
    requires mm == -m && mc == -c
    ensures mm + mc * h == -(m + c * h)
  {
  }

  lemma MeanMoved(m: real, w: real, d: real)
    requires w != 0.0
    ensures (m + d * w) / w == m / w + d
  {
    assert (m + d * w) / w == m / w + (d * w) / w;
  }

  /** Moving every bin centre by `d` moves the offset by `d`. */
  lemma OffsetMoves(cs: seq<real>, hs: seq<nat>, d: real)
    requires |cs| == |hs|
    ensures Offset(Moved(cs, d), hs) == (if Offset(cs, hs).Some? then Some(Offset(cs, hs).value + d) else None)
  {
    var t := Highest(hs) as real / 2.0;
    var w := BandWeight(hs, t);
    var m := BandMoment(cs, hs, t);
    BandMomentMoved(cs, Moved(cs, d), hs, t, d);
    assert Offset(cs, hs) == if w == 0.0 then None else Some(m / w);
    var ms := Moved(cs, d);
    assert BandMoment(ms, hs, t) == m + d * w;
    assert Offset(ms, hs) == if w == 0.0 then None else Some((m + d * w) / w);
    if w != 0.0 {
      MeanMoved(m, w, d);
    }
  }

  /** Only bin `k` reaches the threshold: the band is that bin alone. */
  lemma {:induction false} BandOfOneBin(cs: seq<real>, hs: seq<nat>, t: real, k: nat)
    requires |cs| == |hs| && k < |hs| && hs[k] as real >= t
    requires forall j :: 0 <= j < |hs| && j != k ==> (hs[j] as real) < t
    ensures BandWeight(hs, t) == hs[k] as real
    ensures BandMoment(cs, hs, t) == cs[k] * hs[k] as real
  {
    var n := |hs| - 1;
    if k < n {
      BandOfOneBin(cs[..n], hs[..n], t, k);
    } else {
      BandBelowThreshold(cs[..n], hs[..n], t);
    }
  }

  lemma {:induction false} BandBelowThreshold(cs: seq<real>, hs: seq<nat>, t: real)
    requires |cs| == |hs|
    requires forall k :: 0 <= k < |hs| ==> (hs[k] as real) < t
    ensures BandWeight(hs, t) == 0.0 && BandMoment(cs, hs, t) == 0.0
  {
    if |hs| > 0 {
      var n := |hs| - 1;
      BandBelowThreshold(cs[..n], hs[..n], t);
    }
  }

  /** When only the highest bin reaches half its height, the offset is that
      bin's centre. */
  lemma OffsetOfOneBin(cs: seq<real>, hs: seq<nat>, k: nat)
    requires |cs| == |hs| && k < |hs| && hs[k] > 0
    requires forall j :: 0 <= j < |hs| && j != k ==> 2 * hs[j] < hs[k]
    ensures Offset(cs, hs) == Some(cs[k])
  {
    var m := Highest(hs);
    assert m == hs[k];
    var t := m as real / 2.0;
    var h := hs[k] as real;
    BandOfOneBin(cs, hs, t, k);
    assert BandWeight(hs, t) == h && BandMoment(cs, hs, t) == cs[k] * h;
    MeanOfOne(cs[k], h);
    assert Offset(cs, hs) == Some((cs[k] * h) / h);
    assert (cs[k] * h) / h == cs[k];
    assert Offset(cs, hs) == Some(cs[k]);
  }

  lemma MeanOfOne(c: real, h: real)
    requires h != 0.0
    ensures (c * h) / h == c
  {
  }

  /** Five unit bins centred on shifts -2..2 holding 1, 4, 10, 4, 1 entries:
      only the central bin reaches half the highest, so the offset is 0. */
  lemma OffsetExample()
    ensures Offset([-2.0, -1.0, 0.0, 1.0, 2.0], [1, 4, 10, 4, 1]) == Some(0.0)
  {
    var hs := [1, 4, 10, 4, 1];
    OffsetOfOneBin([-2.0, -1.0, 0.0, 1.0, 2.0], hs, 2);
  }
}

=== FILE: plane_order.dfy ===
/** The telescope geometry as the correlator sees it: the detector planes in
    layer order, their position along the beam (z) and their pixel counts; the
    order of a plane along z; the neighbour relation between sensors; and the
    guess of which plane a hit belongs to. */
module PlaneOrder {

  /** One layer of the geometry description. */
  datatype Plane = Plane(id: int, z: real, npixX: int, npixY: int)

  /** Two planes closer than this along z are at the same place. */
  const ZTolerance: real := 0.000001

  /** Number of planes lying clearly upstream of position `z`. */
  function CountBelow(planes: seq<Plane>, z: real): (n: nat)
    ensures n <= |planes|
  {
    if |planes| == 0 then 0
    else CountBelow(planes[..|planes| - 1], z) + (if planes[|planes| - 1].z + ZTolerance < z then 1 else 0)
  }

  /** The position of plane `i` along the beam: how many planes lie upstream
      of it. Planes within the tolerance of each other share a position. */
  function ZOrder(planes: seq<Plane>, i: nat): nat
    requires i < |planes|
  {
    CountBelow(planes, planes[i].z)
  }

  /** `CountBelow` counts exactly the planes it is meant to. */
  lemma {:induction false} CountBelowIsCardinality(planes: seq<Plane>, z: real)
    ensures CountBelow(planes, z) == |set j | 0 <= j < |planes| && planes[j].z + ZTolerance < z|
  {
    if |planes| > 0 {
      var n := |planes| - 1;
      var front := planes[..n];
      CountBelowIsCardinality(front, z);
      var below := set j | 0 <= j < |planes| && planes[j].z + ZTolerance < z;
      var frontBelow := set j | 0 <= j < |front| && front[j].z + ZTolerance < z;
      assert frontBelow == below - {n};
      if planes[n].z + ZTolerance < z {
        assert below == frontBelow + {n};
      } else {
        assert below == frontBelow;
      }
    }
  }

  /** A plane that is not upstream of `z` keeps the count below the total. */
  lemma {:induction false} CountBelowMissesOne(planes: seq<Plane>, z: real, k: nat)
    requires k < |planes| && planes[k].z + ZTolerance >= z
    ensures CountBelow(planes, z) < |planes|
  {
    var n := |planes| - 1;
    if k < n {
      CountBelowMissesOne(planes[..n], z, k);
    }
  }

  /** Positions lie in `[0, |planes|)`: a plane is never upstream of itself. */
  lemma ZOrderBounded(planes: seq<Plane>, i: nat)
    requires i < |planes|
    ensures ZOrder(planes, i) < |planes|
  {
    CountBelowMissesOne(planes, planes[i].z, i);
  }

  /** No plane upstream of `z` gives count 0. */
  lemma {:induction false} CountBelowNone(planes: seq<Plane>, z: real)
    requires forall j :: 0 <= j < |planes| ==> planes[j].z + ZTolerance >= z
    ensures CountBelow(planes, z) == 0
  {
    if |planes| > 0 {
      CountBelowNone(planes[..|planes| - 1], z);
    }
  }

  /** The most upstream plane is at position 0. */
  lemma MinimalIsFirst(planes: seq<Plane>, i: nat)
    requires i < |planes|
    requires forall j :: 0 <= j < |planes| ==> planes[i].z <= planes[j].z
    ensures ZOrder(planes, i) == 0
  {
    CountBelowNone(planes, planes[i].z);
  }

  /** Further downstream never means a smaller position. */
  lemma {:induction false} CountBelowMonotone(planes: seq<Plane>, z1: real, z2: real)
    requires z1 <= z2
    ensures CountBelow(planes, z1) <= CountBelow(planes, z2)
  {
    if |planes| > 0 {
      CountBelowMonotone(planes[..|planes| - 1], z1, z2);
    }
  }

  lemma ZOrderMonotone(planes: seq<Plane>, i: nat, k: nat)
    requires i < |planes| && k < |planes| && planes[i].z <= planes[k].z
    ensures ZOrder(planes, i) <= ZOrder(planes, k)
  {
    CountBelowMonotone(planes, planes[i].z, planes[k].z);
  }

  lemma CountBelowThree(a: Plane, b: Plane, c: Plane, z: real)
    ensures CountBelow([a, b, c], z) ==
      (if a.z + ZTolerance < z then 1 else 0) + (if b.z + ZTolerance < z then 1 else 0) + (if c.z + ZTolerance < z then 1 else 0)
  {
    var s := [a, b, c];
    assert s[..2] == [a, b];
    assert s[..2][..1] == [a];
    assert s[..2][..1][..0] == [];
    assert CountBelow(s[..2][..1][..0], z) == 0;
    assert CountBelow(s[..2][..1], z) == (if a.z + ZTolerance < z then 1 else 0);
    assert CountBelow(s[..2], z) == CountBelow(s[..2][..1], z) + (if b.z + ZTolerance < z then 1 else 0);
  }

  /** Three planes 10 apart are at positions 0, 1 and 2; a third plane half
      the tolerance behind the second shares its position. */
  lemma ZOrderExamples()
    ensures var p := [Plane(1, 0.0, 1, 1), Plane(2, 10.0, 1, 1), Plane(3, 20.0, 1, 1)];
      ZOrder(p, 0) == 0 && ZOrder(p, 1) == 1 && ZOrder(p, 2) == 2
    ensures var q := [Plane(1, 0.0, 1, 1), Plane(2, 10.0, 1, 1), Plane(3, 10.0000005, 1, 1)];
      ZOrder(q, 0) == 0 && ZOrder(q, 1) == 1 && ZOrder(q, 2) == 1
  {
    var a, b, c, c' := Plane(1, 0.0, 1, 1), Plane(2, 10.0, 1, 1), Plane(3, 20.0, 1, 1), Plane(3, 10.0000005, 1, 1);
    CountBelowThree(a, b, c, 0.0);
    CountBelowThree(a, b, c, 10.0);
    CountBelowThree(a, b, c, 20.0);
    CountBelowThree(a, b, c', 0.0);
    CountBelowThree(a, b, c', 10.0);
    CountBelowThree(a, b, c', 10.0000005);
  }

  // ---------------------------------------------------------------------
  // The sensor-ID to position map
  // ---------------------------------------------------------------------

  /** Plane `j` is the first plane carrying its sensor ID. */
  predicate FirstWithId(planes: seq<Plane>, j: nat)
    requires j < |planes|
  {
    forall k :: 0 <= k < j ==> planes[k].id != planes[j].id
  }

  /** The map from sensor ID to position built from the first `n` planes by
      inserting, so that the first plane with an ID decides its position. */
  function ZOrderMapUpTo(planes: seq<Plane>, n: nat): (m: map<int, nat>)
    requires n <= |planes|
    ensures m.Keys == set j | 0 <= j < n :: planes[j].id
  {
    if n == 0 then map[]
    else
      var m := ZOrderMapUpTo(planes, n - 1);
      var id := planes[n - 1].id;
      assert (set j | 0 <= j < n :: planes[j].id) == (set j | 0 <= j < n - 1 :: planes[j].id) + {id};
      if id in m then m else m[id := ZOrder(planes, n - 1)]
  }

  /** The first plane carrying an ID decides the position stored for it. */
  lemma {:induction false} ZOrderMapUpToFirst(planes: seq<Plane>, n: nat, j: nat)
    requires j < n <= |planes| && FirstWithId(planes, j)
    ensures ZOrderMapUpTo(planes, n)[planes[j].id] == ZOrder(planes, j)
  {
    var id := planes[n - 1].id;
    if j < n - 1 {
      ZOrderMapUpToFirst(planes, n - 1, j);
      if id == planes[j].id {
        assert id in ZOrderMapUpTo(planes, n - 1);
      }
    } else {
      assert id !in ZOrderMapUpTo(planes, n - 1);
    }
  }

  /** The sensor IDs of the geometry. */
  function SensorIDs(planes: seq<Plane>): set<int> {
    set j | 0 <= j < |planes| :: planes[j].id
  }

  /** `_sensorIDtoZOrderMap`: one entry per sensor ID of the geometry. */
  function ZOrderMap(planes: seq<Plane>): (m: map<int, nat>)
    ensures m.Keys == SensorIDs(planes)
  {
    ZOrderMapUpTo(planes, |planes|)
  }

  /** Reading the position of a sensor from the map gives the position of
      the first plane carrying it. */
  lemma ZOrderMapReads(planes: seq<Plane>, j: nat)
    requires j < |planes| && FirstWithId(planes, j)
    ensures planes[j].id in ZOrderMap(planes)
    ensures ZOrderOf(ZOrderMap(planes), planes[j].id) == ZOrder(planes, j)
  {
    ZOrderMapUpToFirst(planes, |planes|, j);
  }

  /** The subscript operator's read of the map: an unknown ID reads as 0. */
  function ZOrderOf(m: map<int, nat>, id: int): nat {
    if id in m then m[id] else 0
  }

  /** Sensor `b` is the next one downstream of sensor `a`. Booking and
      filling both use exactly this test. */
  predicate Neighbours(m: map<int, nat>, a: int, b: int) {
    ZOrderOf(m, b) == ZOrderOf(m, a) + 1
  }

  lemma NoSelfNeighbour(m: map<int, nat>, a: int)
    ensures !Neighbours(m, a, a)
  {
  }

  /** Between sensors of the geometry, the neighbour relation points
      downstream: the second sensor sits strictly further along the beam. */
  lemma NeighboursPointDownstream(planes: seq<Plane>, i: nat, k: nat)
    requires i < |planes| && k < |planes| && FirstWithId(planes, i) && FirstWithId(planes, k)
    requires Neighbours(ZOrderMap(planes), planes[i].id, planes[k].id)
    ensures planes[i].z < planes[k].z
  {
    ZOrderMapReads(planes, i);
    ZOrderMapReads(planes, k);
    if planes[k].z <= planes[i].z {
      ZOrderMonotone(planes, k, i);
    }
  }

  // ---------------------------------------------------------------------
  // Pixel ranges
  // ---------------------------------------------------------------------

  /** Index of the last plane carrying `id`, or -1. */
  function LastIndexOf(planes: seq<Plane>, id: int): (j: int)
    ensures -1 <= j < |planes|
    ensures j >= 0 ==> planes[j].id == id && forall k :: j < k < |planes| ==> planes[k].id != id
    ensures j < 0 ==> forall k :: 0 <= k < |planes| ==> planes[k].id != id
  {
    if |planes| == 0 then -1
    else if planes[|planes| - 1].id == id then |planes| - 1
    else LastIndexOf(planes[..|planes| - 1], id)
  }

  /** The highest pixel column of a sensor. The range maps are assigned plane
      by plane, so the last plane with the ID decides; an unknown ID reads as
      0. The lowest column and row are always 0. */
  function MaxX(planes: seq<Plane>, id: int): int {
    var j := LastIndexOf(planes, id);
    if j >= 0 then planes[j].npixX - 1 else 0
  }

  /** The highest pixel row of a sensor, chosen like `MaxX`. */
  function MaxY(planes: seq<Plane>, id: int): int {
    var j := LastIndexOf(planes, id);
    if j >= 0 then planes[j].npixY - 1 else 0
  }

  /** The pixel columns of the last plane carrying `id` (0 for an unknown ID,
      which the booking never asks about). */
  function NpixelX(planes: seq<Plane>, id: int): int {
    var j := LastIndexOf(planes, id);
    if j >= 0 then planes[j].npixX else 0
  }

  /** The pixel rows of the last plane carrying `id`, chosen like `NpixelX`. */
  function NpixelY(planes: seq<Plane>, id: int): int {
    var j := LastIndexOf(planes, id);
    if j >= 0 then planes[j].npixY else 0
  }

  // ---------------------------------------------------------------------
  // Guessing the plane of a hit
  // ---------------------------------------------------------------------

  function Abs(x: real): real {
    if x < 0.0 then -x else x
  }

  function Distance(p: Plane, z: real): real {
    Abs(z - p.z)
  }

  /** Plane `i` is the first plane nearest to `z`. */
  predicate FirstNearest(planes: seq<Plane>, z: real, i: nat)
    requires i < |planes|
  {
    && (forall j :: 0 <= j < |planes| ==> Distance(planes[i], z) <= Distance(planes[j], z))
    && (forall j :: 0 <= j < i ==> Distance(planes[i], z) < Distance(planes[j], z))
  }

  /** The search loop of `guessSensorID` over the first `n` planes: it keeps
      a candidate and replaces it only on a strictly smaller distance. Its
      initial bound (the largest double) is beaten by any real distance, so
      the first plane is always taken. */
  function NearestUpTo(planes: seq<Plane>, z: real, n: nat): (i: nat)
    requires 1 <= n <= |planes|
    ensures i < n
    ensures forall j :: 0 <= j < n ==> Distance(planes[i], z) <= Distance(planes[j], z)
    ensures forall j :: 0 <= j < i ==> Distance(planes[i], z) < Distance(planes[j], z)
  {
    if n == 1 then 0
    else
      var best := NearestUpTo(planes, z, n - 1);
      if Distance(planes[n - 1], z) < Distance(planes[best], z) then n - 1 else best
  }

  /** `guessSensorID`: the ID of the first plane nearest to the hit's z, or -1
      without planes. The far-hit warning does not change the result. */
  function GuessSensorID(planes: seq<Plane>, hitZ: real): (sensorID: int)
    ensures |planes| == 0 ==> sensorID == -1
    ensures |planes| > 0 ==> exists i :: 0 <= i < |planes| && FirstNearest(planes, hitZ, i) && sensorID == planes[i].id
  {
    if |planes| == 0 then -1
    else
      var i := NearestUpTo(planes, hitZ, |planes|);
      assert FirstNearest(planes, hitZ, i);
      planes[i].id
  }
}

=== FILE: run_summary.dfy ===
/** The summary at the end of a run: for every booked sensor pair, the X and
    Y offset of the internal sensor relative to the external one, read off
    the shift histograms filled during the run. */
module RunSummary {
  import opened Wrappers
  import opened PlaneOrder
  import opened Booking
  import opened Correlator
  import opened OffsetEstimate

  /** The centres of the bins of an axis, lowest first. */
  function Centres(a: Axis): (cs: seq<real>)
    requires a.bins > 0
    ensures |cs| == a.bins
    ensures forall k :: 0 <= k < a.bins ==> cs[k] == BinCentre(a, k)
  {
    seq(a.bins, k requires 0 <= k < a.bins => BinCentre(a, k))
  }

  /** The shifts filled into the histogram of pair (`row`, `col`), in
      filling order. */
  function ShiftsOf(fills: seq<Fill>, row: int, col: int): (vs: seq<real>)
    ensures |vs| <= |fills|
  {
    if |fills| == 0 then []
    else
      var n := |fills| - 1;
      ShiftsOf(fills[..n], row, col) + (if fills[n].row == row && fills[n].col == col then [fills[n].v] else [])
  }

  /** A fill of the pair exists with that shift. */
  predicate FilledWith(fills: seq<Fill>, row: int, col: int, v: real) {
    exists j :: 0 <= j < |fills| && fills[j].row == row && fills[j].col == col && fills[j].v == v
  }

  /** The shifts of a pair are exactly the values filled for it. */
  lemma {:induction false} ShiftsOfMembership(fills: seq<Fill>, row: int, col: int, v: real)
    ensures v in ShiftsOf(fills, row, col) <==> FilledWith(fills, row, col, v)
  {
    if |fills| > 0 {
      var n := |fills| - 1;
      ShiftsOfMembership(fills[..n], row, col, v);
      if FilledWith(fills[..n], row, col, v) {
        var j :| 0 <= j < n && fills[..n][j].row == row && fills[..n][j].col == col && fills[..n][j].v == v;
        assert fills[j] == fills[..n][j];
      }
      if FilledWith(fills, row, col, v) && !(fills[n].row == row && fills[n].col == col && fills[n].v == v) {
        var j :| 0 <= j < |fills| && fills[j].row == row && fills[j].col == col && fills[j].v == v;
        assert fills[..n][j] == fills[j];
      }
    }
  }

  /** The offset read off one shift axis. When the axis has no bins the
      loops never run and the mean is 0/0, `None` here as for an empty
      band. */
  function AxisOffset(a: Axis, vs: seq<real>): Option<real> {
    if ValidAxis(a) then Offset(Centres(a), Histogram(a, vs)) else None
  }

  /** What the end of run reports for one pair: nothing, or an X and a Y
      offset (`None` where the mean is undefined). */
  datatype PairOffsets = Skipped | Offsets(x: Option<real>, y: Option<real>)

  /** `end`: a pair is skipped when no cluster collection was seen, when its
      X shift histogram was never booked, or when that histogram's shift
      axis has no bins. Otherwise each offset is the half-maximum band mean
      of the shifts projected onto the shift axis. */
  function PairOffset(st: State, row: int, col: int): (r: PairOffsets)
    ensures r.Offsets? ==> st.hasCluster && (row, col) in st.booking.clusters
  {
    if !st.hasCluster || (row, col) !in st.booking.clusters then Skipped
    else
      var h := st.booking.clusters[(row, col)];
      if h.shiftX.y.bins <= 0 then Skipped
      else Offsets(AxisOffset(h.shiftX.y, ShiftsOf(st.filled.shiftX, row, col)),
                   AxisOffset(h.shiftY.y, ShiftsOf(st.filled.shiftY, row, col)))
  }

  // ---------------------------------------------------------------------
  // Properties
  // ---------------------------------------------------------------------

  /** In a consistent state exactly the booked neighbour pairs whose internal
      sensor has a pixel column are reported. */
  lemma ReportedPairs(cfg: Config, st: State, row: int, col: int)
    requires Consistent(cfg, st)
    ensures PairOffset(st, row, col).Offsets? <==>
      (st.initialized && st.hasCluster && (row, col) in BookedPairs(cfg.planes) && MaxX(cfg.planes, col) >= 0)
  {
  }

  /** Values that all fall into one bin fill that bin alone. */
  lemma {:induction false} HistogramOfUniform(a: Axis, vs: seq<real>, v: real)
    requires ValidAxis(a) && InRange(a, v)
    requires forall j :: 0 <= j < |vs| ==> vs[j] == v
    ensures 0 <= BinOf(a, v) < a.bins
    ensures forall k :: 0 <= k < a.bins ==> Histogram(a, vs)[k] == if k == BinOf(a, v) then |vs| else 0
  {
    BinOfInRange(a, v);
    if |vs| > 0 {
      HistogramOfUniform(a, vs[..|vs| - 1], v);
    }
  }

  /** A shift axis centres bin `d + max` on shift `d`. */
  lemma ShiftBin(max: int, d: int)
    requires -max <= d <= max
    ensures ValidAxis(ShiftAxis(max)) && InRange(ShiftAxis(max), d as real)
    ensures BinOf(ShiftAxis(max), d as real) == d + max
  {
    var a := ShiftAxis(max);
    assert BinWidth(a) == 1.0;
    assert (d as real - a.lo) / BinWidth(a) == (d + max) as real + 0.5;
  }

  /** When every shift of a pair is the same whole number of pixels, that
      shift is the offset. */
  lemma AxisOffsetOfUniformShift(max: int, vs: seq<real>, d: int)
    requires -max <= d <= max && |vs| > 0
    requires forall j :: 0 <= j < |vs| ==> vs[j] == d as real
    ensures AxisOffset(ShiftAxis(max), vs) == Some(d as real)
  {
    var a := ShiftAxis(max);
    ShiftBin(max, d);
    HistogramOfUniform(a, vs, d as real);
    OffsetOfOneBin(Centres(a), Histogram(a, vs), d + max);
  }

  /** Values that all equal `v` inside an axis fill one bin, and the offset
      is that bin's centre. */
  lemma AxisOffsetOfUniform(a: Axis, vs: seq<real>, v: real)
    requires ValidAxis(a) && InRange(a, v) && |vs| > 0
    requires forall j :: 0 <= j < |vs| ==> vs[j] == v
    ensures 0 <= BinOf(a, v) < a.bins
    ensures AxisOffset(a, vs) == Some(BinCentre(a, BinOf(a, v)))
  {
    HistogramOfUniform(a, vs, v);
    OffsetOfOneBin(Centres(a), Histogram(a, vs), BinOf(a, v));
  }

  /** Every bin centre lies at least half a bin inside the axis. */
  lemma CentreWithin(a: Axis, k: int)
    requires ValidAxis(a) && 0 <= k < a.bins
    ensures a.lo + BinWidth(a) / 2.0 <= BinCentre(a, k) <= a.hi - BinWidth(a) / 2.0
  {
    var w := BinWidth(a);
    assert w * (a.bins as real) == a.hi - a.lo;
    assert w > 0.0;
    assert k as real * w >= 0.0;
    assert (k + 1) as real * w <= (a.bins as real) * w;
  }

  /** The offset read off any axis stays at least half a bin inside it. */
  lemma AxisOffsetWithin(a: Axis, vs: seq<real>)
    requires ValidAxis(a)
    ensures AxisOffset(a, vs).Some? ==>
      a.lo + BinWidth(a) / 2.0 <= AxisOffset(a, vs).value <= a.hi - BinWidth(a) / 2.0
  {
    var cs := Centres(a);
    forall k | 0 <= k < |cs|
      ensures a.lo + BinWidth(a) / 2.0 <= cs[k] <= a.hi - BinWidth(a) / 2.0
    {
      CentreWithin(a, k);
    }
    OffsetBetween(cs, Histogram(a, vs), a.lo + BinWidth(a) / 2.0, a.hi - BinWidth(a) / 2.0);
  }

  /** Both Y shift axes have bins at least one row wide. */
  lemma ShiftAxisYIsWide(max: int, corrected: bool)
    requires max >= 0
    ensures ValidAxis(ShiftAxisY(max, corrected)) && BinWidth(ShiftAxisY(max, corrected)) >= 1.0
  {
    var a := ShiftAxisY(max, corrected);
    var n := a.bins as real;
    assert BinWidth(a) * n == a.hi - a.lo;
    assert n <= a.hi - a.lo;
  }

  /** The offset never leaves the range of shifts the axis covers. */
  lemma AxisOffsetWithinRange(max: int, vs: seq<real>)
    ensures AxisOffset(ShiftAxis(max), vs).Some? ==>
      -(max as real) <= AxisOffset(ShiftAxis(max), vs).value <= max as real
  {
    var a := ShiftAxis(max);
    if ValidAxis(a) {
      OffsetBetween(Centres(a), Histogram(a, vs), -(max as real), max as real);
    }
  }

  /** Without shifts there is no offset. */
  lemma AxisOffsetOfNothing(a: Axis)
    ensures AxisOffset(a, []) == None
  {
    if ValidAxis(a) {
      OffsetUndefinedIffEmpty(Centres(a), Histogram(a, []));
    }
  }

  /** The fills of a pair all carry shift `d`, and there is one. */
  predicate UniformlyFilled(fills: seq<Fill>, row: int, col: int, d: real) {
    && (exists j :: 0 <= j < |fills| && fills[j].row == row && fills[j].col == col)
    && forall j :: 0 <= j < |fills| && fills[j].row == row && fills[j].col == col ==> fills[j].v == d
  }

  lemma UniformShifts(fills: seq<Fill>, row: int, col: int, d: real)
    requires UniformlyFilled(fills, row, col, d)
    ensures |ShiftsOf(fills, row, col)| > 0
    ensures forall k :: 0 <= k < |ShiftsOf(fills, row, col)| ==> ShiftsOf(fills, row, col)[k] == d
  {
    var vs := ShiftsOf(fills, row, col);
    ShiftsOfMembership(fills, row, col, d);
    forall k | 0 <= k < |vs|
      ensures vs[k] == d
    {
      ShiftsOfMembership(fills, row, col, vs[k]);
    }
  }

  /** A reported pair whose X shifts are all the same whole number of
      pixels reports that shift as its X offset. */
  lemma UniformShiftIsTheOffsetX(cfg: Config, st: State, row: int, col: int, d: int)
    requires Consistent(cfg, st) && st.initialized && st.hasCluster
    requires (row, col) in BookedPairs(cfg.planes)
    requires -MaxX(cfg.planes, col) <= d <= MaxX(cfg.planes, col)
    requires UniformlyFilled(st.filled.shiftX, row, col, d as real)
    ensures PairOffset(st, row, col).Offsets? && PairOffset(st, row, col).x == Some(d as real)
  {
    UniformShifts(st.filled.shiftX, row, col, d as real);
    AxisOffsetOfUniformShift(MaxX(cfg.planes, col), ShiftsOf(st.filled.shiftX, row, col), d);
  }

  /** As booked, a reported pair whose Y shifts all equal a whole `d` within
      the sensor reports the centre of the wide bin that `d` falls into. */
  lemma UniformShiftIsTheOffsetY(cfg: Config, st: State, row: int, col: int, d: int)
    requires Consistent(cfg, st) && st.initialized && st.hasCluster
    requires (row, col) in BookedPairs(cfg.planes) && MaxX(cfg.planes, col) >= 0
    requires -MaxY(cfg.planes, col) <= d <= MaxY(cfg.planes, col)
    requires UniformlyFilled(st.filled.shiftY, row, col, d as real)
    ensures var a := ShiftAxisY(MaxY(cfg.planes, col), false);
      && ValidAxis(a) && 0 <= BinOf(a, d as real) < a.bins
      && PairOffset(st, row, col).Offsets? && PairOffset(st, row, col).y == Some(BinCentre(a, BinOf(a, d as real)))
  {
    var a := ShiftAxisY(MaxY(cfg.planes, col), false);
    UniformShifts(st.filled.shiftY, row, col, d as real);
    ShiftAxisYIsWide(MaxY(cfg.planes, col), false);
    AxisOffsetOfUniform(a, ShiftsOf(st.filled.shiftY, row, col), d as real);
  }

  /** A sensor with rows 0..2: a uniform Y shift of one row is read back as
      5/3 from the Y shift axis as booked, and as 1 from the corrected one. */
  lemma YOffsetOfOneRow()
    ensures AxisOffset(ShiftAxisY(2, false), [1.0]) == Some(5.0 / 3.0)
    ensures AxisOffset(ShiftAxisY(2, true), [1.0]) == Some(1.0)
  {
    var a := ShiftAxisY(2, false);
    assert BinWidth(a) == 5.0 / 3.0;
    assert (1.0 - a.lo) / BinWidth(a) == 2.1;
    AxisOffsetOfUniform(a, [1.0], 1.0);
    AxisOffsetOfUniformShift(2, [1.0], 1);
  }

  /** With the corrected booking, a uniform whole Y shift within the sensor is
      the offset read off the pair's Y shift axis. */
  lemma CorrectedUniformShiftIsTheOffsetY(planes: seq<Plane>, hasHit: bool, row: int, col: int, vs: seq<real>, d: int)
    requires (row, col) in BookHistosCorrected(planes, true, hasHit).clusters
    requires -MaxY(planes, col) <= d <= MaxY(planes, col) && |vs| > 0
    requires forall j :: 0 <= j < |vs| ==> vs[j] == d as real
    ensures AxisOffset(BookHistosCorrected(planes, true, hasHit).clusters[(row, col)].shiftY.y, vs) == Some(d as real)
  {
    AxisOffsetOfUniformShift(MaxY(planes, col), vs, d);
  }

  /** Reported offsets lie within the pixel range of the internal sensor. */
  lemma OffsetsWithinSensor(cfg: Config, st: State, row: int, col: int)
    requires Consistent(cfg, st)
    ensures var r := PairOffset(st, row, col);
      && (r.Offsets? && r.x.Some? ==> -(MaxX(cfg.planes, col) as real) <= r.x.value <= MaxX(cfg.planes, col) as real)
      && (r.Offsets? && r.y.Some? ==> -(MaxY(cfg.planes, col) as real) <= r.y.value <= MaxY(cfg.planes, col) as real)
  {
    AxisOffsetWithinRange(MaxX(cfg.planes, col), ShiftsOf(st.filled.shiftX, row, col));
    var max := MaxY(cfg.planes, col);
    if max >= 0 {
      ShiftAxisYIsWide(max, false);
      AxisOffsetWithin(ShiftAxisY(max, false), ShiftsOf(st.filled.shiftY, row, col));
    }
  }

  /** A reported pair without X shifts has no X offset. */
  lemma NoShiftsNoOffset(st: State, row: int, col: int)
    requires forall j :: 0 <= j < |st.filled.shiftX| ==> (st.filled.shiftX[j].row, st.filled.shiftX[j].col) != (row, col)
    ensures PairOffset(st, row, col).Offsets? ==> PairOffset(st, row, col).x == None
  {
    var vs := ShiftsOf(st.filled.shiftX, row, col);
    if |vs| > 0 {
      ShiftsOfMembership(st.filled.shiftX, row, col, vs[0]);
    }
    if (row, col) in st.booking.clusters {
      AxisOffsetOfNothing(st.booking.clusters[(row, col)].shiftX.y);
    }
  }
}

=== FILE: wrappers.dfy ===
/** Failure-carrying datatypes shared by the whole model. */
module Wrappers {

  /** A value that may be absent. The model uses `None` for the places where
      the C++ code has no defined value: a read outside a vector or a grid,
      and a division by a zero sum. */
  datatype Option<+T> = None | Some(value: T)
}
